=== FILE: README.md ===
# A Dafny model of the asuna backend core

The asuna backend takes in a user's browsing history and keeps it per user.
It asks a generative model for an "interests" analysis and for diary entries
written from that history, and it suggests content. Its source also defines
an image-generation handler, which the server does not mount.
This project models the deterministic parts of five JavaScript files. It
proves what each of them does around the calls it makes to other services.

- **History ledger** (`src/store.js`). `addHistory` works in four steps:
  - it builds the set of stored keys, each a url followed by a timestamp;
  - it drops incoming items whose own key is already in that set; this key
    treats a missing url, and a missing or zero timestamp, as empty text;
  - it stably sorts the stored items followed by the kept ones, newest first;
  - it keeps the first 500.

  The two key functions are modelled exactly as JavaScript evaluates them. A
  missing timestamp renders as `undefined`, and a missing url makes the
  stored key `NaN`. The namespaced getters and setters work over one
  key-value map (module `Store`).
- **Day grouping** (`src/routes/diary.js`). `groupByDay` groups items by the
  UTC date of their timestamp. An item with no timestamp, or timestamp 0,
  gets the date of `now`. The date comes from an integer-arithmetic
  conversion of epoch milliseconds to a proleptic Gregorian date (module
  `CivilDate`). It is rendered in the ISO 8601 extended form `YYYY-MM-DD`
  (section 4.1.2.2 of ISO 8601:2004). `toISOString` throws a RangeError
  beyond ±8.64e15 ms, and this is modelled. The generate route overwrites
  the stored diary (module `DiaryRoutes`).
- **Model gateway** (`src/ai.js`). This covers the missing-key check and the
  timeout race. It covers the inputs given to the model: the 20-item label
  list, the day log and the user's check-in. It covers extraction of the
  greedy `{…}` JSON block, the three-way error classification, the "never
  throws" policy of diary generation, and trimming in rewrite (module
  `Gateway`).
- **Image generation** (`src/routes/images.js`). The router defines a
  `POST /generate` handler. This covers body defaults,
  prompt validation, the `sampleCount` clamp through `parseInt`, the
  filtering of predictions, and the mapping of outcomes to statuses (module
  `Images`).
- **Discover content** (`src/routes/content.js`). This covers the topic
  string and the two cards (module `Discover`).

The model call, `JSON.parse`, `fetch`, `toLocaleTimeString` and
`encodeURIComponent` are function-typed parameters: each maps what the code
hands over to what comes back. The current time is an integer parameter.
Whether `GEMINI_API_KEY` is set is a boolean parameter. The JavaScript
built-ins the code depends on are written out in module `JsText`: `join`,
`includes`, `trim` with its full white-space set, `String(n)`, `parseInt`
and the UTF-16 `length`.

The ledger does not keep identity keys unique. `addHistory` checks incoming
items only against the stored ones, never against each other. Its incoming
key also differs from the stored key for a missing or zero timestamp and for
a missing url (`Ledger.KeysAgreeIff`). So two identical items in one batch
are both kept (`Ledger.MergeCounts`), and some stored items come back a
second time when re-sent (`Ledger.TimestamplessItemIsReAdded` and its
neighbours).

## Model

| member | source | states |
|---|---|---|
| Records.EffectiveUser | src/routes/diary.js:19 | an absent or empty `userId` acts for `default`, and any other id acts for itself |
| Records.SyncUser | src/routes/history.js:8 | the sync route's default replaces an absent `userId` only; any given id, the empty one included, acts for itself |
| Records.SyncUserDiffersOnEmptyOnly | src/routes/history.js:8 | the sync route and the other routes resolve the same user for every id except the empty one, which the sync route files under `""` |
| Store.GetHistory | src/store.js:5-7 | with nothing stored for the user, the ledger is empty |
| Store.SetHistory | src/store.js:18-20 | the next read returns exactly the items written, unsorted and not deduplicated, and no other key changes |
| Store.AddHistory | src/store.js:9-16 | the stored and returned ledger is the merge of the stored ledger with the batch; it holds at most 500 items, newest first; no other key changes |
| Store.GetDiary | src/store.js:22-24 | with nothing stored the diary is `{entries: []}` |
| Store.SetDiary | src/store.js:26-28 | the next read returns exactly the diary written, and no other key changes |
| Store.GetInterests | src/store.js:30-32 | with nothing stored the analysis is `{interests: [], suggestions: []}` |
| Store.SetInterests | src/store.js:34-36 | the next read returns exactly the analysis written, and no other key changes |
| Store.KeysIsolated | src/store.js:5-36 | keys of different namespaces never coincide, and within a namespace different users get different keys |
| Store.HistoryWriteIsolated | src/store.js:18-20 | a history write leaves every diary, every analysis and other users' histories as they were |
| Store.AddHistoryIsolated | src/store.js:14-15 | the same holds for `addHistory` |
| Store.DiaryWriteIsolated | src/store.js:26-28 | a diary write leaves every history, every analysis and other users' diaries as they were |
| Store.InterestsWriteIsolated | src/store.js:34-36 | an analysis write leaves every history, every diary and other users' analyses as they were |
| Store.SyncExample | src/store.js:9-16 | syncing `a`@100 and then `a`@100 with `b`@200 leaves `[b, a]`: `a` is not added twice |
| Store.FirstSync | src/store.js:9-16 | the first sync of one item into an empty ledger stores just that item |
| Store.SecondSync | src/store.js:9-16 | re-sending a stored item with a new one adds only the new one, newest first |
| Ledger.StoredKey | src/store.js:11 | the stored key is `NaN` exactly when the url is missing; otherwise it is text that starts with the url and is longer than it |
| Ledger.IncomingKey | src/store.js:12 | the incoming key starts with the url, or the empty text when it is missing, and is just that exactly when the timestamp is missing or zero |
| Ledger.KeysAgreeIff | src/store.js:11-12 | the two keys of an item agree exactly when it has a url and a non-zero timestamp |
| Ledger.KeysCarryTimestamp | src/store.js:11-12 | the text after the url in the stored key reads back with `parseInt` as the timestamp, or is `undefined` when it is missing; the same holds for the incoming key when the timestamp is non-zero |
| Ledger.DistinctTimesDistinctKeys | src/store.js:11-12 | one url at two different timestamps gives two different stored keys, and two different incoming keys when both timestamps are non-zero |
| Ledger.FilterFresh | src/store.js:12 | keeps each item whose incoming key was not seen, as often as the batch has it; drops every other item; keeps nothing else |
| Ledger.FilterFreshAppend | src/store.js:12 | filtering a concatenation is the concatenation of the filtered parts, so kept items stay in batch order |
| Ledger.FilterFreshSingle | src/store.js:12 | a single item is kept exactly when its incoming key was not seen |
| Ledger.SortDesc | src/store.js:13 | the result is a permutation of the input, sorted newest first with a missing timestamp as 0 |
| Ledger.SortDescIsStableSort | src/store.js:13 | the sort is stable: items with equal keys keep their input order |
| Ledger.StableSortUnique | src/store.js:13 | two stable newest-first orderings of one input are equal, so the result is the one any stable sort gives |
| Ledger.Take | src/store.js:13 | a prefix of the input of length exactly `min(n, length)`, the whole input when it is short enough |
| Ledger.Merge | src/store.js:10-13 | exactly `min(500, stored + kept)` items, newest first, each one either stored or an incoming item whose key was not seen |
| Ledger.MergeIsPrefixOfStableSort | src/store.js:10-13 | the merge equals the first 500 items of any stable newest-first sort of the stored items followed by the kept ones |
| Ledger.MergeDropsSeen | src/store.js:11-12 | first write wins: an item whose incoming key is stored has no more copies in the result than among the stored items |
| Ledger.MergeCounts | src/store.js:10-13 | below the limit, each item appears as often as it is stored, plus as often as the batch has it when its key is unseen; duplicates within one batch survive |
| Ledger.MergeKeepsStored | src/store.js:10-13 | below the limit, no stored item is lost |
| Ledger.KnownItemIsDropped | src/store.js:11-12 | a stored item with a url and a non-zero timestamp is dropped when re-sent |
| Ledger.SelfMismatchReAdds | src/store.js:11-13 | a stored item whose own incoming key is unseen comes back as a second copy when re-sent |
| Ledger.TimestamplessItemIsReAdded | src/store.js:11-12 | a stored item without a timestamp is stored twice after being re-sent (`url + "undefined"` against `url`) |
| Ledger.ZeroTimestampItemIsReAdded | src/store.js:11-12 | a stored item with timestamp 0 is stored twice after being re-sent (`url + "0"` against `url`) |
| Ledger.UrllessItemIsReAdded | src/store.js:11-12 | a stored item without a url has key `NaN`, so re-sending it adds a second copy |
| Ledger.ConcatenatedKeysCollide | src/store.js:11-12 | keys are plain concatenations: the stored (`a1`, 23) hides the different incoming (`a`, 123) |
| DayGrouping.GroupByDay | src/routes/diary.js:7-16 | fails with `Invalid time value` exactly when some item's time is not a valid date; otherwise every date has at most one group |
| DayGrouping.Dates | src/routes/diary.js:10-11 | one date per item, in order, each the item's UTC date |
| DayGrouping.PartitionBy | src/routes/diary.js:9-14 | groups built by pushing the items in order have distinct dates |
| DayGrouping.PushLookup | src/routes/diary.js:12-13 | pushing appends the item to its date's group, creates the group if it is missing, and changes no other group |
| DayGrouping.PartitionGroups | src/routes/diary.js:9-14 | the group of each date holds exactly the items of that date, in input order, and exists only when it is non-empty |
| DayGrouping.ItemInItsGroup | src/routes/diary.js:9-14 | every item is in the group of its own date |
| DayGrouping.GroupMembersShareDate | src/routes/diary.js:9-14 | every member of a date's group is an input item of that date |
| DayGrouping.GroupExistsIff | src/routes/diary.js:9-14 | a date has a group exactly when some item carries that date |
| DayGrouping.PartitionComplete | src/routes/diary.js:9-14 | the groups together hold each input item exactly as often as the input does; their sizes sum to the input length |
| DayGrouping.UndatedItemGoesToToday | src/routes/diary.js:10-11 | an item with a missing or zero timestamp is dated by `now` |
| DayGrouping.SameGroupIffSameDay | src/routes/diary.js:10-11 | two items get the same date exactly when their times fall on the same UTC day |
| CivilDate.CivilFromDays | src/routes/diary.js:11 | the calendar date of a day number is a valid date whose day number is that number |
| CivilDate.CivilUnique | src/routes/diary.js:11 | different valid dates have different day numbers |
| CivilDate.CivilRoundTrip | src/routes/diary.js:11 | every valid date is the date of its own day number |
| CivilDate.ReferenceSamples | src/routes/diary.js:11 | day numbers of reference dates: the epoch, 2000-03-01 after a leap day, and 1900-03-01 with no 1900-02-29 |
| CivilDate.FormatRoundTrip | src/routes/diary.js:11 | a rendered date reads back as the same date, and its text is canonical: `YYYY-MM-DD` for years 0000-9999, otherwise a sign, six year digits, `-MM-DD` |
| CivilDate.FourDigitRoundTrip | src/routes/diary.js:11 | the round trip for years written with four digits |
| CivilDate.SignedRoundTrip | src/routes/diary.js:11 | the round trip for years written with a sign and six digits |
| CivilDate.SignedFields | src/routes/diary.js:11 | in the rendering of a year outside 0000-9999, the sign, the six year digits, the month and the day sit at fixed positions between `-` separators |
| CivilDate.ParseFormatRoundTrip | src/routes/diary.js:11 | the other direction: a canonical date text with an in-range month and day is exactly the rendering of the date it reads as |
| CivilDate.FourDigitText | src/routes/diary.js:11 | the other direction for `YYYY-MM-DD` texts |
| CivilDate.SignedText | src/routes/diary.js:11 | the other direction for texts with a signed six-digit year |
| CivilDate.SignedYearText | src/routes/diary.js:11 | the signed year field of a canonical text is the rendering of the year it reads as |
| CivilDate.SignedYearField | src/routes/diary.js:11 | in a canonical signed text, a `-` year is minus its six digits and positive, and a `+` year is the digits themselves and above 9999 |
| CivilDate.ParseDate | src/routes/diary.js:11 | a text reads as a date exactly when it has the shape `YYYY-MM-DD` or sign, six digits, `-MM-DD`, with `-` separators and decimal fields |
| CivilDate.SlashedDateIsNotRead | src/routes/diary.js:11 | `1970/01/01` does not read as a date: the separators are part of the shape |
| CivilDate.ValueOfBound | src/routes/diary.js:11 | a field of `w` decimal digits is worth less than `10^w` |
| CivilDate.FormatInjective | src/routes/diary.js:11 | different dates render differently |
| CivilDate.IsoDate | src/routes/diary.js:11 | fails with `Invalid time value` exactly beyond ±8.64e15 ms; otherwise the text is a canonical `YYYY-MM-DD` (or signed six-digit year) date text that reads back as the calendar date of the time's UTC day, so by `ParseFormatRoundTrip` it is that date's rendering |
| CivilDate.SameDateIffSameDay | src/routes/diary.js:11 | two valid times get the same date text exactly when they fall on the same UTC day |
| CivilDate.EpochIsNewYear1970 | src/routes/diary.js:11 | the date `1970-01-01` renders as `1970-01-01` |
| DiaryRoutes.GetDiaryRoute | src/routes/diary.js:18-22 | the diary stored for the resolved user, or `{entries: []}` when none is stored |
| DiaryRoutes.GetDiaryReadsBack | src/routes/diary.js:18-22 | after a diary is stored for the user an id resolves to, the route returns it; an empty id reads the `default` user's diary |
| DiaryRoutes.GenerateRoute | src/routes/diary.js:24-35 | fails with 500 `Invalid time value` exactly when some stored item cannot be dated, and then nothing is stored; otherwise the diary generated for today is both stored and returned, and only that user's diary key changes |
| DiaryRoutes.GenerateWithoutTodayErasesDiary | src/routes/diary.js:29-31 | when no stored item is dated today, the stored diary is replaced by `{entries: []}` |
| DiaryRoutes.GenerateWithoutHistoryErasesDiary | src/routes/diary.js:27-31 | with no stored history, the stored diary is replaced by `{entries: []}` |
| DiaryRoutes.GeneratedDiaryIsServed | src/routes/diary.js:18-31 | the next `GET /diary` of the same user returns the diary just generated |
| Gateway.ClassifyError | src/ai.js:50-56 | `429` or `Quota` anywhere gives the quota message; otherwise `timed out` gives the busy message; otherwise the message behind `AI Error: ` |
| Gateway.TimerClassifiesAsTimeout | src/ai.js:19 | the timer's `Request timed out` is reported as the busy-server timeout |
| Gateway.MissingKeyClassifiesAsAiError | src/ai.js:9 | a missing key is reported as `AI Error: GEMINI_API_KEY not set` |
| Gateway.ClassifiedShapes | src/ai.js:50-56 | every translated message is the quota message, the busy message or starts with `AI Error: ` |
| Gateway.IndexOf | src/ai.js:46 | the first index holding the character, or none when no index does |
| Gateway.LastIndexOf | src/ai.js:46 | the last index holding the character, or none when no index does |
| Gateway.ExtractJsonBlock | src/ai.js:46-47 | absent exactly when no `{` precedes a `}`; otherwise the leftmost, longest `{…}` span |
| Gateway.ExtractFromWrapped | src/ai.js:131 | a block wrapped in text that holds no `{` before it and no `}` after it is recovered unchanged |
| Gateway.Labels | src/ai.js:33 | the non-empty labels, no more than the items, empty exactly when every label is empty |
| Gateway.LabelsAppend | src/ai.js:33 | labelling a concatenation concatenates the labels, so labels keep item order |
| Gateway.LabelsSingle | src/ai.js:33 | one item gives its label when the label is non-empty, and nothing otherwise |
| Gateway.AnalysedItems | src/ai.js:32 | the first 20 items |
| Gateway.TitledLabels | src/ai.js:33 | when every item has a title, the labels are exactly the titles, in order |
| Gateway.AnalysisIgnoresTail | src/ai.js:32-33 | items past the twentieth never reach the prompt |
| Gateway.AnalysisOfReply | src/ai.js:42-57 | a rejection gives the translated error; an answer with no block gives the invalid-format record; a block that parses gives that record; a block that does not parse gives the translated parse error |
| Gateway.AnalyzeSearchHistory | src/ai.js:23-58 | a missing key fails before the history is looked at; empty history gives the `Sync some history first!` record; an expired timer gives the busy message; otherwise the result is what the model's reply to this history yields |
| Gateway.AnalysisErrorsAreTranslated | src/ai.js:48-57 | every failure carries one of the three translated messages |
| Gateway.CheckInOf | src/ai.js:112-118 | the check-in enters the prompt exactly when the mood or the activity is truthy, and carries both |
| Gateway.PageLabel | src/ai.js:85 | never empty: the title when it is truthy, otherwise `Unknown Page` |
| Gateway.LogLines | src/ai.js:83-86 | one `[time] title (url)` line per item, in order |
| Gateway.LoggedItems | src/ai.js:83 | the first 500 items of the day |
| Gateway.DayLogLines | src/ai.js:83-87 | the log has one line for each of the first 500 items and ignores the rest |
| Gateway.DiaryOfReply | src/ai.js:128-140 | a block that parses gives that diary; a rejection, an answer without a block and a block that does not parse each give `{entries: []}`; any other diary is the parse of the answer's block |
| Gateway.GenerateDiary | src/ai.js:60-141 | a missing key, an undatable clock or a target date without a group give `{entries: []}`; otherwise the diary is what the model's reply to that group's log yields |
| Gateway.GenerateDiaryReadsOnlyTarget | src/ai.js:69-78 | groupings that agree on the target date give the same diary: no other date's items are used |
| Gateway.TargetDate | src/ai.js:69 | the context's date when it is present and non-empty, today otherwise |
| Gateway.RewriteEntry | src/ai.js:144-161 | a settled answer is returned trimmed at both ends, and trimming it again changes nothing; a rejection is returned as `Rewrite failed: ` followed by its own message; a missing key and an expired timer give that prefix followed by their messages; nothing else succeeds |
| Gateway.RewriteStripsPadding | src/ai.js:156 | an answer padded with white space comes back without the padding |
| JsText.JoinEmptyIff | src/routes/content.js:11 | a join with a non-empty separator is empty exactly when there is nothing to join or the only part is empty |
| JsText.ContainsIffOccurs | src/ai.js:50 | the substring search answers exactly whether the pattern occurs somewhere |
| JsText.Trim | src/ai.js:156 | the result is a slice of the input with only white space cut on each side, and it neither starts nor ends with white space |
| JsText.TrimIdempotent | src/ai.js:156 | trimming a trimmed string changes nothing |
| JsText.ValueOfInjective | src/routes/diary.js:11 | two decimal fields of one width with one value are the same text |
| JsText.TrimPadded | src/routes/images.js:51 | trimming white padding around a string with no white ends gives that string |
| JsText.ParseIntDecimal | src/routes/images.js:76 | `parseInt(String(n))` is `n` for every integer |
| JsText.Utf16Length | src/routes/images.js:56 | between the character count and twice it, and equal to the character count exactly when no character lies outside the Basic Multilingual Plane |
| JsText.Utf16LengthAppend | src/routes/images.js:56 | the length of a concatenation is the sum of the lengths |
| JsText.Utf16LengthChar | src/routes/images.js:56 | a character outside the Basic Multilingual Plane counts two, any other one |
| Images.SampleCount | src/routes/images.js:76 | always within 1..4: the number read when it lies in 1..4, 1 for `NaN` and anything up to 1, 4 for anything from 4 up |
| Images.SampleCountOfNumber | src/routes/images.js:76 | a number asks for itself, clamped to 1..4 |
| Images.SampleCountDefault | src/routes/images.js:45 | an omitted `numberOfImages` asks for one image |
| Images.RequestFor | src/routes/images.js:43-81 | the request carries the trimmed prompt, the clamped count read from `numberOfImages` (1 when omitted), the given fields, and `1:1`, `1K` and `allow_all` where fields are omitted |
| Images.ImagesOf | src/routes/images.js:94-98 | only non-empty images, each taken from some prediction; none exactly when no prediction carries one |
| Images.ImagesOfAppend | src/routes/images.js:94-98 | filtering a concatenation concatenates the images, so images keep prediction order |
| Images.ImagesOfSingle | src/routes/images.js:94-98 | one prediction gives its image when it is present and non-empty, and nothing otherwise |
| Images.ImagesOfComplete | src/routes/images.js:95-97 | when every prediction carries an image, all of them are returned, in order |
| Images.ReplyOf | src/routes/images.js:84-124 | a delivered answer gives 200 with the images, their count and the prompt exactly when it holds an array with an image, else 500 with the format or no-images message; an HTTP error keeps its status and carries the provider's message or `Imagen API error: <status>`; a throw gives 500 with its message or the generic one; every failure has `success: false` |
| Images.GenerateImages | src/routes/images.js:34-126 | 503 without a key, then 400 for a missing prompt, then 400 for one over 3600 UTF-16 units before trimming; otherwise the provider's answer to the request for this body; images only ever come back for a valid prompt |
| Images.BlankPromptIsMissing | src/routes/images.js:51-53 | a white-space-only prompt is refused as missing, not as too long |
| Images.LengthCountsPadding | src/routes/images.js:56-58 | padding counts toward the length limit even when the trimmed prompt is short |
| Discover.FirstTopics | src/routes/content.js:11 | the first three interests, or all of them when there are fewer |
| Discover.Topics | src/routes/content.js:10-11 | `technology` when the first three interests are none or a single empty one; otherwise those interests joined with ` OR ` |
| Discover.TopicsFallbackIff | src/routes/content.js:10-11 | the `technology` fallback is taken exactly when no interest is stored among the first three, or the only one is empty |
| Discover.TopicsOfThree | src/routes/content.js:11 | three or more interests give the first three joined with ` OR ` |
| Discover.DiscoverItems | src/routes/content.js:13-16 | exactly two cards: the fixed video card, then `Explore: ` and the topics, with the search url of the encoded topics |
| Discover.DiscoverRoute | src/routes/content.js:8-18 | two cards, the fixed video card and the `Explore:` card for the topics of the resolved user's stored interests; `technology` when none are stored |
| Discover.NewUserSeesTechnology | src/routes/content.js:10-11 | a user with no stored analysis is shown `technology`, through the getter's default |
| Discover.CardFollowsStoredInterests | src/routes/content.js:8-18 | after an analysis is stored, the second card shows its interests |

## Left out

- The node-cache TTL of seven days is not modelled, because expiry depends on time inside the library. The store is a plain map.
- `src/index.js` does not mount `imageRoutes` (it mounts only the diary, interests, content and history routers), so no request reaches the image handler. The handler is modelled as the router defines it.
- Express wiring, CORS, environment loading and PM2 configuration (`src/index.js`, `ecosystem.config.cjs`) are plumbing. So is request parsing: a body without `userId` or `prompt` is a `None` or `Undefined` field, and a missing `req.body` is not modelled.
- `src/routes/history.js` and `src/routes/interests.js` only forward to the store and the gateway, and their handlers are not modelled. Their user fallbacks are: the sync route (`src/routes/history.js:8`) uses `Records.SyncUser`, which keeps an empty id; the other three use `Records.EffectiveUser`, which maps it to `default`.
- The model call, `JSON.parse`, `fetch`, `toLocaleTimeString` and `encodeURIComponent` are parameters, because their behaviour lives outside this code. `getAI`'s caching of the client and the model name are left out. So are the image-model list and the key's value.
- The fixed prose of the prompts is left out: it carries no behaviour. The prompts are modelled by their inputs only.
- Only integer timestamps and counts are modelled. Fractional times, `NaN` timestamps and `String(n)` for numbers of 1e21 or more are left out.
- `groupByDay` calls `Date.now()` once per undated item. The model uses one `now` per request, which only differs when a request straddles midnight UTC.
- A getter given a key that holds another kind of record returns the default. The source returns whatever is stored.
- A field that is present but `null` or of a JSON type other than the one modelled is not modelled. This covers a `null` interests list, a truthy non-string `bytesBase64Encoded`, and a non-string error message. A thrown error without a message is modelled as the empty message.
- Images.ReplyOf: an `HttpError` outcome is not required to carry a non-2xx status, so its contract says nothing about the status range.
- A target date equal to a property inherited by plain objects, such as `constructor`, would make `generateDiary` throw inside its `try`. The result is the same `{entries: []}` the model gives for a missing group. The route never passes such a date.
- DayGrouping.EffectiveTime, Gateway.WithTimeout, Gateway.Label and the other small helpers have no contract of their own. Their behaviour is stated through the members that use them. The same holds for the recursive helpers `Gateway.LabelList`, `Ledger.FreshList`, `Images.ImageList` and `Ledger.IncomingText`: the contracted members `Labels`, `FilterFresh`, `ImagesOf` and `IncomingKey` wrap them, and their facts lemmas carry the proofs.
- The timer durations of `withTimeout` (15 seconds for the history analysis, 10 seconds for rewrites) are not modelled. A `Race` records only whether the call or the timer settles first. Diary generation has no timer, and its model call returns a plain `Reply`.

=== FILE: civildate.dfy ===
/**
 * The date part of a time value's ISO string: the UTC calendar date of an
 * epoch-millisecond time value in the proleptic Gregorian calendar, rendered
 * in ISO 8601 extended calendar-date form `YYYY-MM-DD` (section 4.1.2.2 of
 * ISO 8601:2004), with the expanded `±YYYYYY` year JavaScript uses outside
 * 0000..9999 (section 4.1.2.4).
 *
 * The reference is `DaysFromCivil`, which counts days from 1970-01-01 by
 * whole years, leap days and month lengths; `CivilFromDays` is proved to be
 * its inverse.
 */
module CivilDate {
  import opened Outcomes
  import opened JsText

  const MsPerDay: int := 86400000

  /** ECMAScript's TimeClip bound: `new Date(t)` is invalid beyond it. */
  const MaxTime: int := 8640000000000000

  /** The message of the RangeError `toISOString` throws on an invalid date. */
  const InvalidTime: string := "Invalid time value"

  datatype Civil = Civil(year: int, month: int, day: int)

  // ---------------------------------------------------------------------------
  // The calendar
  // ---------------------------------------------------------------------------

  predicate IsLeap(y: int)
  {
    y % 4 == 0 && (y % 100 != 0 || y % 400 == 0)
  }

  function YearDays(y: int): int
  {
    if IsLeap(y) then 366 else 365
  }

  function DaysInMonth(y: int, m: int): int
    requires 1 <= m <= 12
  {
    if m == 2 then (if IsLeap(y) then 29 else 28)
    else if m == 4 || m == 6 || m == 9 || m == 11 then 30
    else 31
  }

  /** Days in the months of year `y` before month `m`. */
  function DaysBeforeMonth(y: int, m: int): int
    requires 1 <= m <= 12
  {
    [0, 31, 59, 90, 120, 151, 181, 212, 243, 273, 304, 334][m - 1]
    + (if m > 2 && IsLeap(y) then 1 else 0)
  }

  /** Number of leap years before year `y`, counted from a fixed origin. */
  function LeapsBefore(y: int): int
  {
    (y - 1) / 4 - (y - 1) / 100 + (y - 1) / 400
  }

  /** Days from 1970-01-01 to January 1st of year `y` (negative before 1970). */
  function DaysBeforeYear(y: int): int
  {
    365 * (y - 1970) + LeapsBefore(y) - LeapsBefore(1970)
  }

  ghost predicate ValidCivil(c: Civil)
  {
    1 <= c.month <= 12 && 1 <= c.day <= DaysInMonth(c.year, c.month)
  }

  /** The reference: the day number of a calendar date, 1970-01-01 being 0. */
  function DaysFromCivil(c: Civil): int
    requires 1 <= c.month <= 12
  {
    DaysBeforeYear(c.year) + DaysBeforeMonth(c.year, c.month) + c.day - 1
  }

  // ---------------------------------------------------------------------------
  // Facts about the calendar
  // ---------------------------------------------------------------------------

  lemma LeapStep(y: int)
    ensures LeapsBefore(y + 1) - LeapsBefore(y) == (if IsLeap(y) then 1 else 0)
  {
    DivStep4(y);
    DivStep100(y);
    DivStep400(y);
    if y % 100 == 0 {
      CenturyIsLeapCandidate(y);
    }
    if y % 400 == 0 {
      QuadCenturyIsCentury(y);
    }
  }

  /** Each multiple of 4 passed adds one to `y / 4`. */
  lemma DivStep4(y: int)
    ensures y / 4 - (y - 1) / 4 == (if y % 4 == 0 then 1 else 0)
  {
  }

  lemma DivStep100(y: int)
    ensures y / 100 - (y - 1) / 100 == (if y % 100 == 0 then 1 else 0)
  {
  }

  lemma DivStep400(y: int)
    ensures y / 400 - (y - 1) / 400 == (if y % 400 == 0 then 1 else 0)
  {
  }

  lemma CenturyIsLeapCandidate(y: int)
    requires y % 100 == 0
    ensures y % 4 == 0
  {
  }

  lemma QuadCenturyIsCentury(y: int)
    requires y % 400 == 0
    ensures y % 100 == 0
  {
  }

  /** Consecutive new years are a year's length apart. */
  lemma YearStep(y: int)
    ensures DaysBeforeYear(y + 1) == DaysBeforeYear(y) + YearDays(y)
  {
    LeapStep(y);
  }

  /** Between new years `a` and `b` lie 365 to 366 days per year. */
  lemma {:induction false} YearSpan(a: int, b: int)
    requires a <= b
    ensures DaysBeforeYear(a) + 365 * (b - a) <= DaysBeforeYear(b) <= DaysBeforeYear(a) + 366 * (b - a)
    decreases b - a
  {
    if a < b {
      YearSpan(a, b - 1);
      YearStep(b - 1);
    }
  }

  lemma YearMonotone(a: int, b: int)
    requires a < b
    ensures DaysBeforeYear(a + 1) <= DaysBeforeYear(b)
  {
    YearSpan(a + 1, b);
  }

  lemma MonthStep(y: int, m: int)
    requires 1 <= m < 12
    ensures DaysBeforeMonth(y, m + 1) == DaysBeforeMonth(y, m) + DaysInMonth(y, m)
  {
  }

  lemma MonthSteps(y: int)
    ensures forall m :: 1 <= m < 12 ==> DaysBeforeMonth(y, m + 1) == DaysBeforeMonth(y, m) + DaysInMonth(y, m)
  {
    forall m | 1 <= m < 12 ensures DaysBeforeMonth(y, m + 1) == DaysBeforeMonth(y, m) + DaysInMonth(y, m) {
      MonthStep(y, m);
    }
  }

  lemma LastMonth(y: int)
    ensures DaysBeforeMonth(y, 12) + DaysInMonth(y, 12) == YearDays(y)
  {
  }

  // ---------------------------------------------------------------------------
  // Day number to calendar date
  // ---------------------------------------------------------------------------

  function YearUp(z: int, y: int): (r: int)
    requires DaysBeforeYear(y) <= z
    ensures DaysBeforeYear(r) <= z < DaysBeforeYear(r + 1)
    decreases z - DaysBeforeYear(y)
  {
    YearStep(y);
    if z < DaysBeforeYear(y + 1) then y else YearUp(z, y + 1)
  }

  function YearDown(z: int, y: int): (r: int)
    requires z < DaysBeforeYear(y)
    ensures DaysBeforeYear(r) <= z < DaysBeforeYear(r + 1)
    decreases DaysBeforeYear(y) - z
  {
    YearStep(y - 1);
    if DaysBeforeYear(y - 1) <= z then y - 1 else YearDown(z, y - 1)
  }

  /** The year holding day `z`: start from the estimate of 146097 days per
      400 years and step to the year whose span contains `z`. */
  function YearOf(z: int): (y: int)
    ensures DaysBeforeYear(y) <= z < DaysBeforeYear(y + 1)
  {
    var guess := 1970 + (z * 400) / 146097;
    if DaysBeforeYear(guess) <= z then YearUp(z, guess) else YearDown(z, guess)
  }

  /** The month of year `y` holding day `doy` (0-based) of that year. */
  function MonthOf(y: int, doy: int, m: int): (r: int)
    requires 1 <= m <= 12
    requires 0 <= doy
    ensures 1 <= r <= m
    ensures DaysBeforeMonth(y, r) <= doy
    ensures r < m ==> doy < DaysBeforeMonth(y, r + 1)
    decreases m
  {
    if DaysBeforeMonth(y, m) <= doy then m else MonthOf(y, doy, m - 1)
  }

  /** The calendar date of day number `z`: a valid date whose day number is `z`. */
  function CivilFromDays(z: int): (c: Civil)
    ensures ValidCivil(c)
    ensures DaysFromCivil(c) == z
  {
    var y := YearOf(z);
    var doy := z - DaysBeforeYear(y);
    YearStep(y);
    var m := MonthOf(y, doy, 12);
    DayInMonth(y, doy, m);
    Civil(y, m, doy - DaysBeforeMonth(y, m) + 1)
  }

  /** A day of the year past the start of month `m`, and before the next
      month's start, lies within month `m`. */
  lemma DayInMonth(y: int, doy: int, m: int)
    requires 1 <= m <= 12 && DaysBeforeMonth(y, m) <= doy < YearDays(y)
    requires m < 12 ==> doy < DaysBeforeMonth(y, m + 1)
    ensures doy - DaysBeforeMonth(y, m) < DaysInMonth(y, m)
  {
    if m < 12 {
      MonthStep(y, m);
    } else {
      LastMonth(y);
    }
  }

  /** A valid date lies within its year and within its month. */
  lemma CivilBounds(c: Civil)
    requires ValidCivil(c)
    ensures DaysBeforeYear(c.year) <= DaysFromCivil(c) < DaysBeforeYear(c.year + 1)
  {
    YearStep(c.year);
    LastMonth(c.year);
    MonthSteps(c.year);
    if c.month < 12 {
      MonthBefore(c.year, c.month + 1, 12);
    }
  }

  /** Months of one year occupy disjoint, increasing day ranges. */
  lemma MonthsDisjoint(y: int, a: int, b: int)
    requires 1 <= a < b <= 12
    ensures DaysBeforeMonth(y, a) + DaysInMonth(y, a) <= DaysBeforeMonth(y, b)
  {
    MonthStep(y, a);
    MonthBefore(y, a + 1, b);
  }

  /** Distinct valid dates have distinct day numbers. */
  lemma CivilUnique(a: Civil, b: Civil)
    requires ValidCivil(a) && ValidCivil(b)
    requires DaysFromCivil(a) == DaysFromCivil(b)
    ensures a == b
  {
    CivilBounds(a);
    CivilBounds(b);
    if a.year < b.year {
      YearMonotone(a.year, b.year);
      assert false;
    }
    if b.year < a.year {
      YearMonotone(b.year, a.year);
      assert false;
    }
    if a.month < b.month {
      MonthsDisjoint(a.year, a.month, b.month);
      assert false;
    }
    if b.month < a.month {
      MonthsDisjoint(a.year, b.month, a.month);
      assert false;
    }
  }

  /** Each valid date is the date of its own day number. */
  lemma CivilRoundTrip(c: Civil)
    requires ValidCivil(c)
    ensures CivilFromDays(DaysFromCivil(c)) == c
  {
    CivilUnique(CivilFromDays(DaysFromCivil(c)), c);
  }

  lemma {:induction false} MonthBefore(y: int, a: int, b: int)
    requires 1 <= a <= b <= 12
    ensures DaysBeforeMonth(y, a) <= DaysBeforeMonth(y, b)
  {
  }

  // ---------------------------------------------------------------------------
  // Rendering
  // ---------------------------------------------------------------------------

  function Pow10(n: nat): nat
  {
    if n == 0 then 1 else 10 * Pow10(n - 1)
  }

  /** A string of `w` decimal digits is worth less than `10^w`. */
  lemma {:induction false} ValueOfBound(s: string)
    requires AllRadixDigits(s, 10)
    ensures ValueOf(s, 10) < Pow10(|s|)
    decreases |s|
  {
    if |s| > 0 {
      var n := |s| - 1;
      ValueOfBound(s[..n]);
      assert DigitValue(s[n]) < 10;
      assert ValueOf(s[..n], 10) + 1 <= Pow10(n);
      assert ValueOf(s, 10) < (ValueOf(s[..n], 10) + 1) * 10;
    }
  }

  lemma {:induction false} NatDigitsFit(n: nat, w: nat)
    requires 1 <= w && n < Pow10(w)
    ensures |NatDigits(n)| <= w
    decreases n
  {
    if n >= 10 {
      assert Pow10(1) == 10;
      assert w >= 2;
      NatDigitsFit(n / 10, w - 1);
    }
  }

  /** `n` in decimal, left-padded with zeros to `width` digits. */
  function Pad(n: nat, width: nat): (r: string)
    requires 1 <= width && n < Pow10(width)
    ensures |r| == width
    ensures forall i :: 0 <= i < |r| ==> IsDecimalDigit(r[i])
    ensures ValueOf(r, 10) == n
  {
    var digits := NatDigits(n);
    NatDigitsFit(n, width);
    var zeros := seq(width - |digits|, _ => '0');
    ValueOfLeadingZeros(zeros, digits, 10);
    ValueOfNatDigits(n);
    zeros + digits
  }

  /** Years the calendar dates of valid time values fall in. */
  ghost predicate RenderableYear(y: int)
  {
    -1000000 < y < 1000000
  }

  /** The year field: four digits inside 0000..9999, otherwise a sign and six. */
  function YearText(y: int): string
    requires RenderableYear(y)
  {
    assert Pow10(4) == 10000 && Pow10(6) == 1000000;
    if 0 <= y <= 9999 then Pad(y, 4)
    else (if y < 0 then "-" else "+") + Pad(if y < 0 then -y else y, 6)
  }

  function FormatDate(c: Civil): string
    requires RenderableYear(c.year) && 1 <= c.month <= 12 && 1 <= c.day <= 31
  {
    assert Pow10(2) == 100;
    YearText(c.year) + "-" + Pad(c.month, 2) + "-" + Pad(c.day, 2)
  }

  /** The text form of a rendered date: `YYYY-MM-DD`, or a sign and six year
      digits in front of `-MM-DD` (section 4.1.2.4 of ISO 8601:2004). */
  predicate DateShape(s: string)
  {
    || (&& |s| == 10 && s[4] == '-' && s[7] == '-'
        && AllRadixDigits(s[0..4], 10) && AllRadixDigits(s[5..7], 10) && AllRadixDigits(s[8..10], 10))
    || (&& |s| == 13 && (s[0] == '+' || s[0] == '-') && s[7] == '-' && s[10] == '-'
        && AllRadixDigits(s[1..7], 10) && AllRadixDigits(s[8..10], 10) && AllRadixDigits(s[11..13], 10))
  }

  /** The date texts `FormatDate` produces: the signed six-digit form is
      used only for years outside 0000..9999, so year 0 has one spelling. */
  predicate CanonicalDate(s: string)
  {
    && DateShape(s)
    && (|s| == 13 ==> var v := ValueOf(s[1..7], 10); if s[0] == '+' then v > 9999 else v > 0)
  }

  /** Reads a rendered date back; the inverse of `FormatDate`. Text of any
      other form reads as nothing. */
  function ParseDate(s: string): (r: Option<Civil>)
    ensures r.Some? <==> DateShape(s)
  {
    if !DateShape(s) then None
    else if |s| == 13 then
      var y: int := ValueOf(s[1..7], 10);
      Some(Civil(if s[0] == '-' then -y else y, ValueOf(s[8..10], 10), ValueOf(s[11..13], 10)))
    else
      Some(Civil(ValueOf(s[0..4], 10), ValueOf(s[5..7], 10), ValueOf(s[8..10], 10)))
  }

  /** The separators are part of the form: a date written with slashes is
      not read. */
  lemma SlashedDateIsNotRead()
    ensures ParseDate("1970/01/01") == None
  {
  }

  lemma FormatRoundTrip(c: Civil)
    requires RenderableYear(c.year) && 1 <= c.month <= 12 && 1 <= c.day <= 31
    ensures ParseDate(FormatDate(c)) == Some(c)
    ensures CanonicalDate(FormatDate(c))
  {
    if 0 <= c.year <= 9999 {
      FourDigitRoundTrip(c);
    } else {
      SignedRoundTrip(c);
    }
  }

  /** The round trip for years written with four digits. */
  lemma FourDigitRoundTrip(c: Civil)
    requires 0 <= c.year <= 9999 && 1 <= c.month <= 12 && 1 <= c.day <= 31
    ensures ParseDate(FormatDate(c)) == Some(c)
  {
    assert Pow10(2) == 100 && Pow10(4) == 10000;
    var mm := Pad(c.month, 2);
    var dd := Pad(c.day, 2);
    var yy := Pad(c.year, 4);
    assert FormatDate(c) == yy + "-" + mm + "-" + dd;
    FieldsAt(yy, mm, dd);
  }

  /** The round trip for years written with a sign and six digits. */
  lemma SignedRoundTrip(c: Civil)
    requires RenderableYear(c.year) && !(0 <= c.year <= 9999)
    requires 1 <= c.month <= 12 && 1 <= c.day <= 31
    ensures ParseDate(FormatDate(c)) == Some(c)
  {
    assert Pow10(2) == 100 && Pow10(6) == 1000000;
    var t := FormatDate(c);
    var v := if c.year < 0 then -c.year else c.year;
    SignedFields(c);
    assert DateShape(t);
    assert ValueOf(t[1..7], 10) == v;
  }

  /** Where the fields of a date with a signed year sit in its rendering. */
  lemma SignedFields(c: Civil)
    requires RenderableYear(c.year) && !(0 <= c.year <= 9999)
    requires 1 <= c.month <= 12 && 1 <= c.day <= 31
    ensures var t := FormatDate(c);
            && |t| == 13 && t[0] == (if c.year < 0 then '-' else '+') && t[7] == '-' && t[10] == '-'
            && (Pow10(6) == 1000000 ==> t[1..7] == Pad(if c.year < 0 then -c.year else c.year, 6))
            && (Pow10(2) == 100 ==> t[8..10] == Pad(c.month, 2) && t[11..13] == Pad(c.day, 2))
  {
    assert Pow10(2) == 100 && Pow10(6) == 1000000;
    var sign := if c.year < 0 then "-" else "+";
    var yy := Pad(if c.year < 0 then -c.year else c.year, 6);
    var t := FormatDate(c);
    assert YearText(c.year) == sign + yy;
    FieldsAt(sign + yy, Pad(c.month, 2), Pad(c.day, 2));
    assert t[1..7] == yy by { assert t[..7] == sign + yy; }
  }

  /** The other direction: a canonical date text with an in-range month and
      day is the rendering of the date it reads as. */
  lemma ParseFormatRoundTrip(s: string)
    requires CanonicalDate(s)
    ensures var c := ParseDate(s).value;
            1 <= c.month <= 12 && 1 <= c.day <= 31 ==> RenderableYear(c.year) && FormatDate(c) == s
  {
    var c := ParseDate(s).value;
    if 1 <= c.month <= 12 && 1 <= c.day <= 31 {
      assert Pow10(2) == 100 && Pow10(4) == 10000 && Pow10(6) == 1000000;
      if |s| == 10 {
        FourDigitText(s);
      } else {
        SignedText(s);
      }
    }
  }

  lemma FourDigitText(s: string)
    requires CanonicalDate(s) && |s| == 10
    requires var c := ParseDate(s).value; 1 <= c.month <= 12 && 1 <= c.day <= 31
    ensures RenderableYear(ParseDate(s).value.year) && FormatDate(ParseDate(s).value) == s
  {
    var c := ParseDate(s).value;
    assert Pow10(2) == 100 && Pow10(4) == 10000;
    ValueOfBound(s[0..4]);
    var yy, mm, dd := Pad(c.year, 4), Pad(c.month, 2), Pad(c.day, 2);
    ValueOfInjective(yy, s[0..4]);
    ValueOfInjective(mm, s[5..7]);
    ValueOfInjective(dd, s[8..10]);
    FieldsAt(yy, mm, dd);
    assert s == s[0..4] + "-" + s[5..7] + "-" + s[8..10];
  }

  lemma SignedText(s: string)
    requires CanonicalDate(s) && |s| == 13
    requires var c := ParseDate(s).value; 1 <= c.month <= 12 && 1 <= c.day <= 31
    ensures RenderableYear(ParseDate(s).value.year) && FormatDate(ParseDate(s).value) == s
  {
    var c := ParseDate(s).value;
    assert Pow10(2) == 100;
    SignedYearText(s);
    var mm, dd := Pad(c.month, 2), Pad(c.day, 2);
    ValueOfInjective(mm, s[8..10]);
    ValueOfInjective(dd, s[11..13]);
    assert FormatDate(c) == s[0..7] + "-" + mm + "-" + dd;
    assert s == s[0..7] + "-" + s[8..10] + "-" + s[11..13];
  }

  /** The year field of a signed date text is the year's own rendering. */
  lemma SignedYearText(s: string)
    requires CanonicalDate(s) && |s| == 13
    ensures var y := ParseDate(s).value.year; RenderableYear(y) && YearText(y) == s[0..7]
  {
    var y := ParseDate(s).value.year;
    var v: int := ValueOf(s[1..7], 10);
    SignedYearField(s);
    assert Pow10(6) == 1000000;
    var yy := Pad(v, 6);
    ValueOfInjective(yy, s[1..7]);
    assert s[0..7] == s[0..1] + yy;
    if s[0] == '-' {
      assert y == -v && y < 0;
      assert YearText(y) == "-" + yy;
    } else {
      assert y == v && y > 9999;
      assert YearText(y) == "+" + yy;
    }
  }

  /** How the year of a signed date text is read: its sign applied to the
      six digits, which a canonical text keeps outside 0000..9999. */
  lemma SignedYearField(s: string)
    requires CanonicalDate(s) && |s| == 13
    ensures var y := ParseDate(s).value.year; var v: int := ValueOf(s[1..7], 10);
            && v < 1000000
            && (s[0] == '-' ==> y == -v && 0 < v)
            && (s[0] == '+' ==> y == v && 9999 < v)
  {
    assert Pow10(6) == 1000000;
    ValueOfBound(s[1..7]);
  }

  /** Where the fields of a rendered date sit. */
  lemma FieldsAt(yy: string, mm: string, dd: string)
    requires |mm| == 2 && |dd| == 2
    ensures var s := yy + "-" + mm + "-" + dd;
            |s| == |yy| + 6 && s[..|yy|] == yy && s[|yy|] == '-' && s[|yy| + 3] == '-'
            && s[|yy| + 1..|yy| + 3] == mm && s[|yy| + 4..|yy| + 6] == dd
  {
  }

  /** Distinct renderable dates render differently. */
  lemma FormatInjective(a: Civil, b: Civil)
    requires RenderableYear(a.year) && 1 <= a.month <= 12 && 1 <= a.day <= 31
    requires RenderableYear(b.year) && 1 <= b.month <= 12 && 1 <= b.day <= 31
    requires FormatDate(a) == FormatDate(b)
    ensures a == b
  {
    FormatRoundTrip(a);
    FormatRoundTrip(b);
  }

  // ---------------------------------------------------------------------------
  // Time values
  // ---------------------------------------------------------------------------

  predicate ValidTime(ts: int)
  {
    -MaxTime <= ts <= MaxTime
  }

  /** UTC day number of a time value: whole days since 1970-01-01, rounding
      toward the past for times before the epoch. */
  function DayNumber(ts: int): int
  {
    ts / MsPerDay
  }

  lemma YearOfValidTimeRenders(ts: int)
    requires ValidTime(ts)
    ensures RenderableYear(CivilFromDays(DayNumber(ts)).year)
  {
    var z := DayNumber(ts);
    var y := CivilFromDays(z).year;
    assert -100000000 <= z <= 100000000;
    assert DaysBeforeYear(y) <= z < DaysBeforeYear(y + 1) by {
      YearStep(y);
      var c := CivilFromDays(z);
      LastMonth(y);
      if c.month < 12 {
        MonthStep(y, c.month);
        MonthBefore(y, c.month + 1, 12);
      }
    }
    assert DaysBeforeYear(1970) == 0;
    if y >= 1000000 {
      YearSpan(1970, y);
    } else if y <= -1000000 {
      YearSpan(y + 1, 1970);
    }
  }

  /** The date part of the ISO string of `ts`, or the RangeError
      thrown for a time value outside the representable range. */
  function IsoDate(ts: int): (r: Result<string, string>)
    ensures r.Err? <==> !ValidTime(ts)
    ensures r.Err? ==> r.error == InvalidTime
    ensures r.Ok? ==> DateShape(r.value)
    ensures r.Ok? ==> CanonicalDate(r.value)
    ensures r.Ok? ==> ParseDate(r.value) == Some(CivilFromDays(DayNumber(ts)))
  {
    if !ValidTime(ts) then Err(InvalidTime)
    else
      var c := CivilFromDays(DayNumber(ts));
      YearOfValidTimeRenders(ts);
      FormatRoundTrip(c);
      Ok(FormatDate(c))
  }

  /** Two valid time values get the same date string exactly when they fall
      on the same UTC day. */
  lemma SameDateIffSameDay(t1: int, t2: int)
    requires ValidTime(t1) && ValidTime(t2)
    ensures IsoDate(t1) == IsoDate(t2) <==> DayNumber(t1) == DayNumber(t2)
  {
    var c1 := CivilFromDays(DayNumber(t1));
    var c2 := CivilFromDays(DayNumber(t2));
    if IsoDate(t1) == IsoDate(t2) {
      assert c1 == c2;
      assert DaysFromCivil(c1) == DaysFromCivil(c2);
    }
  }

  /** Sample day numbers of the reference: the epoch, a leap day of a
      year divisible by 400, and 1 March of a century year that is not leap. */
  lemma ReferenceSamples()
    ensures DaysFromCivil(Civil(1970, 1, 1)) == 0
    ensures DaysFromCivil(Civil(2000, 3, 1)) == 11017 && ValidCivil(Civil(2000, 2, 29))
    ensures DaysFromCivil(Civil(1900, 3, 1)) == -25508 && !ValidCivil(Civil(1900, 2, 29))
  {
  }

  /** The epoch renders as 1970-01-01. */
  lemma EpochIsNewYear1970()
    ensures FormatDate(Civil(1970, 1, 1)) == "1970-01-01"
  {
    assert Pow10(2) == 100 && Pow10(4) == 10000;
    assert NatDigits(1970) == "1970" by {
      assert NatDigits(1) == "1";
      assert NatDigits(19) == "19";
      assert NatDigits(197) == "197";
    }
    assert Pad(1970, 4) == "1970";
    assert Pad(1, 2) == "01" by {
      assert NatDigits(1) == "1";
    }
    assert FormatDate(Civil(1970, 1, 1)) == "1970" + "-" + "01" + "-" + "01";
  }
}

=== FILE: diaryroutes.dfy ===
/**
 * The diary endpoints of `src/routes/diary.js`: reading the stored diary,
 * and generating today's entry from the stored history and storing it.
 */
module DiaryRoutes {
  import opened Outcomes
  import opened Records
  import CivilDate
  import Store
  import DayGrouping
  import Gateway

  /** `GET /diary`: the user's stored diary, `{entries: []}` when none. */
  function GetDiaryRoute(s: Store.Store, userId: Option<string>): (r: Diary)
    ensures var key := Store.DiaryKey(EffectiveUser(userId));
            key in s && s[key].DiaryValue? ==> r == s[key].diary
    ensures Store.DiaryKey(EffectiveUser(userId)) !in s ==> r == EmptyDiary
  {
    Store.GetDiary(s, EffectiveUser(userId))
  }

  /** The route reads back what was stored for the user it resolves to; an
      absent or empty id reads the `default` user's diary. */
  lemma GetDiaryReadsBack(s: Store.Store, userId: Option<string>, d: Diary)
    ensures GetDiaryRoute(Store.SetDiary(s, EffectiveUser(userId), d), userId) == d
    ensures GetDiaryRoute(Store.SetDiary(s, "default", d), Some("")) == d
  {
  }

  /** The answer of `POST /diary/generate`. */
  datatype GenerateResponse =
    | Generated(diary: Diary)                  // 200, the diary as stored
    | Failed(status: int, error: string)       // the caught error

  /** `POST /diary/generate`: groups the stored history by day, asks the
      gateway for today's entry (no context is passed) and overwrites the
      stored diary with whatever comes back. The only error that reaches
      the handler's catch is the RangeError of an undatable timestamp. */
  function GenerateRoute(
    s: Store.Store,
    userId: Option<string>,
    keySet: bool,
    now: int,
    model: Gateway.DiaryPrompt -> Gateway.Reply,
    parse: string -> Result<Diary, string>,
    clock: int -> string
  ): (r: (Store.Store, GenerateResponse))
    ensures var user := EffectiveUser(userId);
            var history := Store.GetHistory(s, user);
            && (r.1.Failed? <==> !DayGrouping.AllDated(history, now))
            && (r.1.Failed? ==> r.0 == s && r.1 == Failed(500, CivilDate.InvalidTime))
            && (r.1.Generated? ==>
                  && Store.GetDiary(r.0, user) == r.1.diary
                  && Store.OnlyKeyChanged(s, r.0, Store.DiaryKey(user))
                  && r.1.diary == Gateway.GenerateDiary(
                       DayGrouping.GroupByDay(history, now).value, Gateway.NoContext,
                       keySet, now, model, parse, clock))
  {
    var user := EffectiveUser(userId);
    match DayGrouping.GroupByDay(Store.GetHistory(s, user), now)
    case Err(message) => (s, Failed(500, message))
    case Ok(byDay) =>
      var diary := Gateway.GenerateDiary(byDay, Gateway.NoContext, keySet, now, model, parse, clock);
      (Store.SetDiary(s, user, diary), Generated(diary))
  }

  /** Generating on a day with no history of that day overwrites the stored
      diary with `{entries: []}`, whatever it held before. */
  lemma GenerateWithoutTodayErasesDiary(
    s: Store.Store, userId: Option<string>, keySet: bool, now: int,
    model: Gateway.DiaryPrompt -> Gateway.Reply, parse: string -> Result<Diary, string>, clock: int -> string
  )
    requires var h := Store.GetHistory(s, EffectiveUser(userId));
             && DayGrouping.AllDated(h, now) && CivilDate.ValidTime(now)
             && forall k :: 0 <= k < |h| ==> DayGrouping.DateOf(h[k], now) != CivilDate.IsoDate(now).value
    ensures var r := GenerateRoute(s, userId, keySet, now, model, parse, clock);
            r.1 == Generated(EmptyDiary) && Store.GetDiary(r.0, EffectiveUser(userId)) == EmptyDiary
  {
    var h := Store.GetHistory(s, EffectiveUser(userId));
    DayGrouping.GroupExistsIff(h, now, CivilDate.IsoDate(now).value);
    assert Gateway.TargetDate(Gateway.NoContext, CivilDate.IsoDate(now).value) == CivilDate.IsoDate(now).value;
  }

  /** With no stored history the stored diary becomes `{entries: []}`, even
      when the clock cannot be rendered as a date. */
  lemma GenerateWithoutHistoryErasesDiary(
    s: Store.Store, userId: Option<string>, keySet: bool, now: int,
    model: Gateway.DiaryPrompt -> Gateway.Reply, parse: string -> Result<Diary, string>, clock: int -> string
  )
    requires Store.HistoryKey(EffectiveUser(userId)) !in s
    ensures var r := GenerateRoute(s, userId, keySet, now, model, parse, clock);
            r.1 == Generated(EmptyDiary) && Store.GetDiary(r.0, EffectiveUser(userId)) == EmptyDiary
  {
    var h := Store.GetHistory(s, EffectiveUser(userId));
    assert DayGrouping.AllDated(h, now);
    assert DayGrouping.GroupByDay(h, now).value == [];
  }

  /** A generated diary is visible to the next `GET /diary` of the same user. */
  lemma GeneratedDiaryIsServed(
    s: Store.Store, userId: Option<string>, keySet: bool, now: int,
    model: Gateway.DiaryPrompt -> Gateway.Reply, parse: string -> Result<Diary, string>, clock: int -> string
  )
    ensures var r := GenerateRoute(s, userId, keySet, now, model, parse, clock);
            r.1.Generated? ==> GetDiaryRoute(r.0, userId) == r.1.diary
  {
  }
}

=== FILE: discover.dfy ===
/**
 * `GET /content/discover` of `src/routes/content.js`: two fixed
 * recommendation cards, the second built from the first three stored
 * interests. `encodeURIComponent` is a parameter.
 */
module Discover {
  import opened Outcomes
  import opened JsText
  import opened Records
  import Store

  /** One card; its `thumbnail` is always `null` and is not carried. */
  datatype DiscoverItem = DiscoverItem(kind: string, title: string, url: string)

  const TopicLimit: nat := 3
  const TopicSeparator: string := " OR "
  const FallbackTopic: string := "technology"
  const SearchPrefix: string := "https://google.com/search?q="

  /** The first card, the same for everyone. */
  const PicksItem: DiscoverItem := DiscoverItem("video", "Top picks for you", "https://youtube.com")

  /** The first three interests, or all of them when there are fewer. */
  function FirstTopics(interests: seq<string>): (r: seq<string>)
    ensures |r| == if |interests| < TopicLimit then |interests| else TopicLimit
    ensures forall k :: 0 <= k < |r| ==> r[k] == interests[k]
  {
    if |interests| <= TopicLimit then interests else interests[..TopicLimit]
  }

  /** The search topics: the first three interests joined by ` OR `, or
      `technology` when that text is empty. A missing `interests` field
      counts as no interests. */
  function Topics(interests: Option<seq<string>>): (r: string)
    ensures r != ""
    ensures var first := FirstTopics(interests.GetOr([]));
            (first == [] || first == [""]) ==> r == FallbackTopic
    ensures var first := FirstTopics(interests.GetOr([]));
            !(first == [] || first == [""]) ==> r == Join(first, TopicSeparator)
  {
    JoinEmptyIff(FirstTopics(interests.GetOr([])), TopicSeparator);
    var joined := Join(FirstTopics(interests.GetOr([])), TopicSeparator);
    if joined == "" then FallbackTopic else joined
  }

  /** The fallback is taken exactly when there is no interest to show: none
      stored, or a single empty one among the first three. */
  lemma TopicsFallbackIff(interests: Option<seq<string>>)
    ensures var first := FirstTopics(interests.GetOr([]));
            Join(first, TopicSeparator) == "" <==> (first == [] || first == [""])
    ensures interests.GetOr([]) == [] ==> Topics(interests) == FallbackTopic
  {
    var first := FirstTopics(interests.GetOr([]));
    JoinEmptyIff(first, TopicSeparator);
  }

  /** Three or more interests: the first three, joined with ` OR `. */
  lemma TopicsOfThree(a: string, b: string, c: string, rest: seq<string>)
    ensures Topics(Some([a, b, c] + rest)) == a + " OR " + b + " OR " + c
  {
    var first := FirstTopics([a, b, c] + rest);
    assert first == [a, b, c];
    assert first[1..] == [b, c] && first[1..][1..] == [c];
    assert Join([c], TopicSeparator) == c;
    assert Join([b, c], TopicSeparator) == b + TopicSeparator + c;
    var joined := Join(first, TopicSeparator);
    assert joined == a + TopicSeparator + (b + TopicSeparator + c);
    assert |joined| >= |TopicSeparator|;
  }

  /** The two cards for a stored analysis. */
  function DiscoverItems(interests: Option<seq<string>>, encode: string -> string): (r: seq<DiscoverItem>)
    ensures |r| == 2
    ensures r[0] == PicksItem
    ensures r[1].kind == "article"
    ensures r[1].title == "Explore: " + Topics(interests)
    ensures r[1].url == SearchPrefix + encode(Topics(interests))
  {
    var topics := Topics(interests);
    [PicksItem, DiscoverItem("article", "Explore: " + topics, SearchPrefix + encode(topics))]
  }

  /** The handler: the cards for the user's stored analysis. */
  function DiscoverRoute(s: Store.Store, userId: Option<string>, encode: string -> string): (r: seq<DiscoverItem>)
    ensures |r| == 2 && r[0] == PicksItem
    ensures var topics := Topics(Store.GetInterests(s, EffectiveUser(userId)).interests);
            r[1] == DiscoverItem("article", "Explore: " + topics, SearchPrefix + encode(topics))
    ensures Store.InterestsKey(EffectiveUser(userId)) !in s
            ==> r[1] == DiscoverItem("article", "Explore: technology", SearchPrefix + encode(FallbackTopic))
  {
    TopicsFallbackIff(Some([]));
    DiscoverItems(Store.GetInterests(s, EffectiveUser(userId)).interests, encode)
  }

  /** A user with no stored analysis is shown technology. */
  lemma NewUserSeesTechnology(s: Store.Store, userId: Option<string>, encode: string -> string)
    requires Store.InterestsKey(EffectiveUser(userId)) !in s
    ensures DiscoverRoute(s, userId, encode)[1].title == "Explore: technology"
    ensures DiscoverRoute(s, userId, encode)[1].url == SearchPrefix + encode(FallbackTopic)
  {
    TopicsFallbackIff(Some([]));
  }

  /** Storing an analysis is what changes the second card: after
      `setInterests`, the card shows the stored interests. */
  lemma CardFollowsStoredInterests(s: Store.Store, user: string, rec: InterestsRecord, encode: string -> string)
    requires user != ""
    ensures DiscoverRoute(Store.SetInterests(s, user, rec), Some(user), encode)[1].title
            == "Explore: " + Topics(rec.interests)
  {
  }
}

=== FILE: gateway.dfy ===
/**
 * The model gateway of `src/ai.js`: the three calls to the generative model
 * (history analysis, diary generation, diary rewrite) with everything the
 * code does around them — the missing-key check, the timeout race, the
 * prompt inputs it assembles, the extraction of a JSON block from the answer
 * and the translation of failures into the messages callers see.
 *
 * The model itself, `JSON.parse` and `toLocaleTimeString` are parameters:
 * each is a function from what the code hands it to what comes back.
 */
module Gateway {
  import opened Outcomes
  import opened JsText
  import opened Records
  import CivilDate
  import DayGrouping

  // ---------------------------------------------------------------------------
  // The model call
  // ---------------------------------------------------------------------------

  /** How a call to `generateContent` (and `response.text()`) ends. */
  datatype Reply = Answered(text: string) | Rejected(message: string)

  /** A model call raced against `withTimeout`'s timer: either the call
      settles first, or the timer fires first. */
  datatype Race = Settled(reply: Reply) | Expired

  /** The rejection of the timer promise. */
  const TimedOut: string := "Request timed out"

  /** The error `getAI` throws when no API key is configured. */
  const MissingKey: string := "GEMINI_API_KEY not set"

  /** `withTimeout(promise, ms)`: the call's own outcome, or the timer's
      rejection when it fires first. */
  function WithTimeout(race: Race): Reply
  {
    match race
    case Settled(reply) => reply
    case Expired => Rejected(TimedOut)
  }

  // ---------------------------------------------------------------------------
  // Error translation
  // ---------------------------------------------------------------------------

  const QuotaExceeded: string := "AI Quota Exceeded. Please try again in a minute."
  const BusyTimeout: string := "AI request timed out. The server may be busy — try again."
  const AiErrorPrefix: string := "AI Error: "

  /** The message `analyzeSearchHistory` rethrows for a failure: a quota
      message when the cause mentions `429` or `Quota`, otherwise a timeout
      message when it mentions `timed out`, otherwise the cause behind the
      `AI Error: ` prefix. */
  function ClassifyError(message: string): (r: string)
    ensures (exists i :: OccursAt(message, "429", i)) || (exists i :: OccursAt(message, "Quota", i))
            ==> r == QuotaExceeded
    ensures !(exists i :: OccursAt(message, "429", i)) && !(exists i :: OccursAt(message, "Quota", i))
            && (exists i :: OccursAt(message, "timed out", i))
            ==> r == BusyTimeout
    ensures !(exists i :: OccursAt(message, "429", i)) && !(exists i :: OccursAt(message, "Quota", i))
            && !(exists i :: OccursAt(message, "timed out", i))
            ==> r == AiErrorPrefix + message
  {
    ContainsIffOccurs(message, "429");
    ContainsIffOccurs(message, "Quota");
    ContainsIffOccurs(message, "timed out");
    if Contains(message, "429") || Contains(message, "Quota") then QuotaExceeded
    else if Contains(message, "timed out") then BusyTimeout
    else AiErrorPrefix + message
  }

  /** A pattern one of whose characters never appears in `s` does not occur in `s`. */
  lemma AbsentCharacter(s: string, p: string, k: int)
    requires 0 <= k < |p|
    requires forall j :: 0 <= j < |s| ==> s[j] != p[k]
    ensures !exists i :: OccursAt(s, p, i)
  {
    forall i ensures !OccursAt(s, p, i) {
      if 0 <= i && i + |p| <= |s| {
        assert s[i..i + |p|][k] == s[i + k] != p[k];
      }
    }
  }

  /** The timer's rejection is reported as the busy-server timeout. */
  lemma TimerClassifiesAsTimeout()
    ensures ClassifyError(TimedOut) == BusyTimeout
  {
    AbsentCharacter(TimedOut, "429", 0);
    AbsentCharacter(TimedOut, "Quota", 0);
    assert OccursAt(TimedOut, "timed out", 8) by {
      assert TimedOut[8..17] == "timed out";
    }
  }

  /** A missing key is reported with the `AI Error: ` prefix. */
  lemma MissingKeyClassifiesAsAiError()
    ensures ClassifyError(MissingKey) == AiErrorPrefix + MissingKey
  {
    AbsentCharacter(MissingKey, "429", 0);
    AbsentCharacter(MissingKey, "Quota", 1);
    AbsentCharacter(MissingKey, "timed out", 1);
  }

  // ---------------------------------------------------------------------------
  // The JSON block of an answer
  // ---------------------------------------------------------------------------

  /** `s[i..j+1]` is a brace-delimited span: a `{` at `i` and a `}` at some
      later `j`, with anything in between. */
  ghost predicate BraceSpan(s: string, i: int, j: int)
  {
    0 <= i < j < |s| && s[i] == '{' && s[j] == '}'
  }

  /** The span the regular-expression match reports: the leftmost start, and from it the
      longest span, as the greedy star takes. */
  ghost predicate ReportedMatch(s: string, i: int, j: int)
  {
    && BraceSpan(s, i, j)
    && (forall i', j' :: BraceSpan(s, i', j') ==> i <= i')
    && (forall j' :: BraceSpan(s, i, j') ==> j' <= j)
  }

  /** The first index at or after `from` holding `c`. */
  function IndexOf(s: string, c: char, from: nat): (r: Option<nat>)
    requires from <= |s|
    ensures r.Some? ==> from <= r.value < |s| && s[r.value] == c
    ensures r.Some? ==> forall k :: from <= k < r.value ==> s[k] != c
    ensures r.None? ==> forall k :: from <= k < |s| ==> s[k] != c
    decreases |s| - from
  {
    if from == |s| then None
    else if s[from] == c then Some(from)
    else IndexOf(s, c, from + 1)
  }

  /** The last index before `upto` holding `c`. */
  function LastIndexOf(s: string, c: char, upto: nat): (r: Option<nat>)
    requires upto <= |s|
    ensures r.Some? ==> r.value < upto && s[r.value] == c
    ensures r.Some? ==> forall k :: r.value < k < upto ==> s[k] != c
    ensures r.None? ==> forall k :: 0 <= k < upto ==> s[k] != c
  {
    if upto == 0 then None
    else if s[upto - 1] == c then Some(upto - 1)
    else LastIndexOf(s, c, upto - 1)
  }

  /** The JSON block of an answer: from the first `{` to the last `}`,
      present exactly when some `{` comes before some `}`. */
  function ExtractJsonBlock(raw: string): (r: Option<string>)
    ensures r.None? <==> forall i, j :: !BraceSpan(raw, i, j)
    ensures r.Some? ==> exists i, j :: ReportedMatch(raw, i, j) && r.value == raw[i..j + 1]
  {
    var open := IndexOf(raw, '{', 0);
    var close := LastIndexOf(raw, '}', |raw|);
    if open.Some? && close.Some? && open.value < close.value then
      assert ReportedMatch(raw, open.value, close.value);
      Some(raw[open.value..close.value + 1])
    else
      None
  }

  /** The reported match is unique, so the block is determined by the answer. */
  lemma ReportedMatchUnique(s: string, i: int, j: int, i': int, j': int)
    requires ReportedMatch(s, i, j) && ReportedMatch(s, i', j')
    ensures i == i' && j == j'
  {
  }

  /** Text around the braces is discarded: a block wrapped in prose or a
      Markdown fence is recovered as it is, whenever the wrapping holds no
      brace. */
  lemma ExtractFromWrapped(before: string, block: string, after: string)
    requires |block| >= 2 && block[0] == '{' && block[|block| - 1] == '}'
    requires forall k :: 0 <= k < |before| ==> before[k] != '{'
    requires forall k :: 0 <= k < |after| ==> after[k] != '}'
    ensures ExtractJsonBlock(before + block + after) == Some(block)
  {
    var s := before + block + after;
    var i := |before|;
    var j := |before| + |block| - 1;
    assert s[i] == '{' && s[j] == '}';
    assert BraceSpan(s, i, j);
    assert forall k :: 0 <= k < |before| ==> s[k] == before[k];
    assert forall k :: |before| + |block| <= k < |s| ==> s[k] == after[k - |before| - |block|];
    assert ReportedMatch(s, i, j);
    var r := ExtractJsonBlock(s);
    var i2, j2 :| ReportedMatch(s, i2, j2) && r.value == s[i2..j2 + 1];
    ReportedMatchUnique(s, i, j, i2, j2);
    assert s[i..j + 1] == block;
  }

  // ---------------------------------------------------------------------------
  // analyzeSearchHistory
  // ---------------------------------------------------------------------------

  /** At most this many of the newest items are shown to the model. */
  const AnalysisItemLimit: nat := 20

  /** The label of an item: its title, else its url, else the empty string;
      an empty title or url counts as missing. */
  function Label(h: HistoryItem): string
  {
    if h.title.Some? && h.title.value != "" then h.title.value
    else if h.url.Some? && h.url.value != "" then h.url.value
    else ""
  }

  /** The non-empty labels of the items, in order. */
  function Labels(items: seq<HistoryItem>): (r: seq<string>)
    ensures |r| <= |items|
    ensures forall k :: 0 <= k < |r| ==> r[k] != ""
    ensures r == [] <==> forall k :: 0 <= k < |items| ==> Label(items[k]) == ""
  {
    LabelListFacts(items);
    LabelList(items)
  }

  /** The recursion behind `Labels`, kept free of a contract so that proofs
      unfolding it stay small. */
  function LabelList(items: seq<HistoryItem>): seq<string>
  {
    if |items| == 0 then []
    else (if Label(items[0]) == "" then [] else [Label(items[0])]) + LabelList(items[1..])
  }

  lemma {:induction false} LabelListFacts(items: seq<HistoryItem>)
    ensures |LabelList(items)| <= |items|
    ensures forall k :: 0 <= k < |LabelList(items)| ==> LabelList(items)[k] != ""
    ensures LabelList(items) == [] <==> forall k :: 0 <= k < |items| ==> Label(items[k]) == ""
  {
    if |items| > 0 {
      LabelListFacts(items[1..]);
      assert forall k :: 1 <= k < |items| ==> items[1..][k - 1] == items[k];
    }
  }

  /** The items the analysis looks at: the first twenty. */
  function AnalysedItems(history: seq<HistoryItem>): (r: seq<HistoryItem>)
    ensures |r| == if |history| < AnalysisItemLimit then |history| else AnalysisItemLimit
    ensures forall k :: 0 <= k < |r| ==> r[k] == history[k]
  {
    if |history| <= AnalysisItemLimit then history else history[..AnalysisItemLimit]
  }

  /** Labelling a concatenation labels each part: the labels keep the order
      of their items. */
  lemma LabelsAppend(a: seq<HistoryItem>, b: seq<HistoryItem>)
    ensures Labels(a + b) == Labels(a) + Labels(b)
  {
    LabelListAppend(a, b);
  }

  lemma {:induction false} LabelListAppend(a: seq<HistoryItem>, b: seq<HistoryItem>)
    ensures LabelList(a + b) == LabelList(a) + LabelList(b)
  {
    if |a| == 0 {
      assert a + b == b;
    } else {
      assert (a + b)[0] == a[0];
      assert (a + b)[1..] == a[1..] + b;
      LabelListAppend(a[1..], b);
    }
  }

  /** One item contributes its label when the label is not empty, and nothing
      otherwise. */
  lemma LabelsSingle(h: HistoryItem)
    ensures Labels([h]) == if Label(h) == "" then [] else [Label(h)]
  {
    assert [h][1..] == [];
  }

  /** The history text of the analysis prompt: one label per line. */
  function AnalysisText(history: seq<HistoryItem>): string
  {
    Join(Labels(AnalysedItems(history)), "\n")
  }

  /** When the first items all have titles, the prompt lists exactly those
      titles, in history order, and nothing else. */
  lemma {:induction false} TitledLabels(items: seq<HistoryItem>)
    requires forall k :: 0 <= k < |items| ==> items[k].title.Some? && items[k].title.value != ""
    ensures |Labels(items)| == |items|
    ensures forall k :: 0 <= k < |items| ==> Labels(items)[k] == items[k].title.value
  {
    if |items| > 0 {
      TitledLabels(items[1..]);
    }
  }

  /** Items past the twentieth never reach the model. */
  lemma AnalysisIgnoresTail(history: seq<HistoryItem>, more: seq<HistoryItem>)
    requires |history| >= AnalysisItemLimit
    ensures AnalysisText(history + more) == AnalysisText(history)
  {
    assert AnalysedItems(history + more) == AnalysedItems(history);
  }

  /** The analysis returned for an empty history: no interests, one suggestion
      to sync first, and an empty summary. */
  const NoHistoryAnalysis: InterestsRecord :=
    InterestsRecord(Some([]), Some(["Sync some history first!"]), Some(""))

  /** The analysis returned when the answer holds no JSON block: no interests,
      no suggestions, and a summary saying the format was invalid. */
  const InvalidFormatAnalysis: InterestsRecord :=
    InterestsRecord(Some([]), Some([]), Some("AI returned invalid format"))

  /** What `analyzeSearchHistory` makes of the model's reply: the parse of
      the answer's JSON block, the invalid-format default when there is no
      block, or the translated error. */
  function AnalysisOfReply(reply: Reply, parse: string -> Result<InterestsRecord, string>): (r: Result<InterestsRecord, string>)
    ensures reply.Rejected? ==> r == Err(ClassifyError(reply.message))
    ensures reply.Answered? && ExtractJsonBlock(reply.text).None? ==> r == Ok(InvalidFormatAnalysis)
    ensures r.Ok? && r.value != InvalidFormatAnalysis
            ==> exists block :: ExtractJsonBlock(reply.text) == Some(block) && parse(block) == Ok(r.value)
    // a block that parses is the analysis; a parse failure is translated like any other error
    ensures reply.Answered? && ExtractJsonBlock(reply.text).Some? && parse(ExtractJsonBlock(reply.text).value).Ok?
            ==> r == Ok(parse(ExtractJsonBlock(reply.text).value).value)
    ensures reply.Answered? && ExtractJsonBlock(reply.text).Some? && parse(ExtractJsonBlock(reply.text).value).Err?
            ==> r == Err(ClassifyError(parse(ExtractJsonBlock(reply.text).value).error))
    ensures r.Err? ==> exists m :: r.error == ClassifyError(m)
  {
    match reply
    case Rejected(message) => Err(ClassifyError(message))
    case Answered(raw) =>
      match ExtractJsonBlock(raw)
      case None => Ok(InvalidFormatAnalysis)
      case Some(block) =>
        match parse(block)
        case Ok(record) => Ok(record)
        case Err(message) => Err(ClassifyError(message))
  }

  /** Every message of the classifier is one of its three shapes. */
  lemma ClassifiedShapes(m: string)
    ensures var e := ClassifyError(m);
            e == QuotaExceeded || e == BusyTimeout
            || (|e| >= |AiErrorPrefix| && e[..|AiErrorPrefix|] == AiErrorPrefix)
  {
    var e := ClassifyError(m);
    if e != QuotaExceeded && e != BusyTimeout {
      assert e == AiErrorPrefix + m;
    }
  }

  /** `analyzeSearchHistory(history)`: `model` answers the prompt built from
      `AnalysisText(history)` (already raced against the 15-second timer),
      and `parse` is `JSON.parse` of the extracted block. */
  function AnalyzeSearchHistory(
    keySet: bool,
    history: seq<HistoryItem>,
    model: string -> Race,
    parse: string -> Result<InterestsRecord, string>
  ): (r: Result<InterestsRecord, string>)
    // the key is checked before the history is looked at
    ensures !keySet ==> r == Err(AiErrorPrefix + MissingKey)
    ensures keySet && |history| == 0 ==> r == Ok(NoHistoryAnalysis)
    ensures keySet && |history| > 0 && model(AnalysisText(history)) == Expired ==> r == Err(BusyTimeout)
    // otherwise the analysis is what the model's reply to this history's text yields
    ensures keySet && |history| > 0 && model(AnalysisText(history)).Settled?
            ==> r == AnalysisOfReply(model(AnalysisText(history)).reply, parse)
  {
    MissingKeyClassifiesAsAiError();
    TimerClassifiesAsTimeout();
    if !keySet then Err(ClassifyError(MissingKey))
    else if |history| == 0 then Ok(NoHistoryAnalysis)
    else AnalysisOfReply(WithTimeout(model(AnalysisText(history))), parse)
  }

  /** Whatever happens, a failure of the analysis carries one of the three
      translated messages. */
  lemma AnalysisErrorsAreTranslated(
    keySet: bool, history: seq<HistoryItem>,
    model: string -> Race, parse: string -> Result<InterestsRecord, string>
  )
    ensures var r := AnalyzeSearchHistory(keySet, history, model, parse);
            r.Err? ==> r.error == QuotaExceeded || r.error == BusyTimeout
                       || (|r.error| >= |AiErrorPrefix| && r.error[..|AiErrorPrefix|] == AiErrorPrefix)
  {
    var r := AnalyzeSearchHistory(keySet, history, model, parse);
    if r.Err? {
      if !keySet {
        ClassifiedShapes(MissingKey);
      } else {
        var m :| r.error == ClassifyError(m);
        ClassifiedShapes(m);
      }
    }
  }

  // ---------------------------------------------------------------------------
  // generateDiary
  // ---------------------------------------------------------------------------

  /** The optional `context` argument: `{date, mood, activity}`. */
  datatype DiaryContext = DiaryContext(date: Option<string>, mood: Option<string>, activity: Option<string>)

  /** `{}`, the default the diary route relies on. */
  const NoContext: DiaryContext := DiaryContext(None, None, None)

  /** JavaScript truthiness of an optional string. */
  predicate Truthy(s: Option<string>)
  {
    s.Some? && s.value != ""
  }

  /** The date the diary is written for: the context's date unless it is
      missing or empty, then today. */
  function TargetDate(ctx: DiaryContext, today: string): (r: string)
    ensures r == today || (ctx.date.Some? && r == ctx.date.value)
    ensures Truthy(ctx.date) ==> r == ctx.date.value
    ensures ctx.date.None? || ctx.date.value == "" ==> r == today
  {
    if Truthy(ctx.date) then ctx.date.value else today
  }

  /** The user's check-in, injected into the prompt. */
  datatype CheckIn = CheckIn(mood: Option<string>, activity: Option<string>)

  /** The check-in is passed only when the mood or the activity is truthy. */
  function CheckInOf(ctx: DiaryContext): (r: Option<CheckIn>)
    ensures r.Some? <==> Truthy(ctx.mood) || Truthy(ctx.activity)
    ensures r.Some? ==> r.value.mood == ctx.mood && r.value.activity == ctx.activity
  {
    if Truthy(ctx.mood) || Truthy(ctx.activity) then Some(CheckIn(ctx.mood, ctx.activity)) else None
  }

  /** What the diary prompt is made of: the target date, that day's activity
      log and the optional check-in. The fixed prose around them is not
      modelled. */
  datatype DiaryPrompt = DiaryPrompt(date: string, log: string, checkIn: Option<CheckIn>)

  /** At most this many of a day's items enter the activity log. */
  const DayLogLimit: nat := 500

  /** The time of a log line: the formatted `lastVisitTime` when it is
      truthy, otherwise empty. */
  function TimeLabel(i: HistoryItem, clock: int -> string): string
  {
    match i.lastVisitTime
    case Some(t) => if t != 0 then clock(t) else ""
    case None => ""
  }

  /** The page name of a log line: the title, or `Unknown Page` when it is
      missing or empty. */
  function PageLabel(i: HistoryItem): (r: string)
    ensures r != ""
    ensures Truthy(i.title) ==> r == i.title.value
  {
    if Truthy(i.title) then i.title.value else "Unknown Page"
  }

  /** The url as interpolated into the log: a missing url is rendered as the
      text `undefined`. */
  function UrlText(i: HistoryItem): string
  {
    i.url.GetOr("undefined")
  }

  /** One log line: the time in brackets, the page name, and the url in
      parentheses. */
  function LogLine(i: HistoryItem, clock: int -> string): string
  {
    "[" + TimeLabel(i, clock) + "] " + PageLabel(i) + " (" + UrlText(i) + ")"
  }

  /** One log line per item, in the items' order. */
  function LogLines(items: seq<HistoryItem>, clock: int -> string): (r: seq<string>)
    ensures |r| == |items|
    ensures forall k :: 0 <= k < |items| ==> r[k] == LogLine(items[k], clock)
  {
    if |items| == 0 then []
    else
      var rest := LogLines(items[1..], clock);
      assert forall k :: 1 <= k < |items| ==> items[1..][k - 1] == items[k];
      [LogLine(items[0], clock)] + rest
  }

  /** The items of a day that enter the log: the first 500. */
  function LoggedItems(items: seq<HistoryItem>): (r: seq<HistoryItem>)
    ensures |r| == if |items| < DayLogLimit then |items| else DayLogLimit
    ensures forall k :: 0 <= k < |r| ==> r[k] == items[k]
  {
    if |items| <= DayLogLimit then items else items[..DayLogLimit]
  }

  /** The day log handed to the diary prompt: a date header, then one line per logged item. */
  function DayLog(date: string, items: seq<HistoryItem>, clock: int -> string): string
  {
    "Date: " + date + "\nActivity Log:\n" + Join(LogLines(LoggedItems(items), clock), "\n")
  }

  /** The log shows one line per item for the first 500 items and none for
      the rest. */
  lemma DayLogLines(items: seq<HistoryItem>, more: seq<HistoryItem>, clock: int -> string)
    ensures |LogLines(LoggedItems(items), clock)| == if |items| < DayLogLimit then |items| else DayLogLimit
    ensures |items| >= DayLogLimit ==> DayLog("", items + more, clock) == DayLog("", items, clock)
  {
    if |items| >= DayLogLimit {
      assert LoggedItems(items + more) == LoggedItems(items);
    }
  }

  /** What `generateDiary` makes of the model's reply: the parse of the
      answer's JSON block, or `{entries: []}` for any failure. */
  function DiaryOfReply(reply: Reply, parse: string -> Result<Diary, string>): (r: Diary)
    ensures r != EmptyDiary ==> exists raw, block ::
              && reply == Answered(raw)
              && ExtractJsonBlock(raw) == Some(block)
              && parse(block) == Ok(r)
    ensures reply.Rejected? ==> r == EmptyDiary
    // an answer without a block, or whose block does not parse, is swallowed too
    ensures reply.Answered? && ExtractJsonBlock(reply.text).None? ==> r == EmptyDiary
    ensures reply.Answered? && ExtractJsonBlock(reply.text).Some? && parse(ExtractJsonBlock(reply.text).value).Err?
            ==> r == EmptyDiary
    // a block that parses is the diary
    ensures reply.Answered? && ExtractJsonBlock(reply.text).Some? && parse(ExtractJsonBlock(reply.text).value).Ok?
            ==> r == parse(ExtractJsonBlock(reply.text).value).value
  {
    match reply
    case Rejected(_) => EmptyDiary
    case Answered(raw) =>
      match ExtractJsonBlock(raw)
      case None => EmptyDiary
      case Some(block) =>
        match parse(block)
        case Err(_) => EmptyDiary
        case Ok(diary) => diary
  }

  /** The prompt inputs for a day: its date, its activity log and the check-in. */
  function PromptFor(target: string, items: seq<HistoryItem>, ctx: DiaryContext, clock: int -> string): DiaryPrompt
  {
    DiaryPrompt(target, DayLog(target, items, clock), CheckInOf(ctx))
  }

  /** `generateDiary(historyByDay, context)`: `today` is the date of `now`,
      `model` answers the diary prompt (no timer here), `parse` is
      `JSON.parse` of the extracted block and `clock` is
      `toLocaleTimeString`. Every failure is swallowed into `{entries: []}`. */
  function GenerateDiary(
    groups: seq<DayGrouping.Group>,
    ctx: DiaryContext,
    keySet: bool,
    now: int,
    model: DiaryPrompt -> Reply,
    parse: string -> Result<Diary, string>,
    clock: int -> string
  ): (r: Diary)
    ensures !keySet ==> r == EmptyDiary
    ensures !CivilDate.ValidTime(now) ==> r == EmptyDiary
    // no group for the target date: nothing is generated
    ensures CivilDate.ValidTime(now)
            && DayGrouping.Lookup(groups, TargetDate(ctx, CivilDate.IsoDate(now).value)).None?
            ==> r == EmptyDiary
    // otherwise the diary is what the model's reply about that group yields
    ensures keySet && CivilDate.ValidTime(now)
            && DayGrouping.Lookup(groups, TargetDate(ctx, CivilDate.IsoDate(now).value)).Some?
            ==> var target := TargetDate(ctx, CivilDate.IsoDate(now).value);
                r == DiaryOfReply(model(PromptFor(target, DayGrouping.Lookup(groups, target).value, ctx, clock)), parse)
  {
    if !keySet then EmptyDiary
    else
      match CivilDate.IsoDate(now)
      case Err(_) => EmptyDiary
      case Ok(today) =>
        var target := TargetDate(ctx, today);
        match DayGrouping.Lookup(groups, target)
        case None => EmptyDiary
        case Some(items) => DiaryOfReply(model(PromptFor(target, items, ctx, clock)), parse)
  }

  /** Only the target date's group matters: two groupings that agree on it
      yield the same diary. */
  lemma GenerateDiaryReadsOnlyTarget(
    g1: seq<DayGrouping.Group>, g2: seq<DayGrouping.Group>,
    ctx: DiaryContext, keySet: bool, now: int,
    model: DiaryPrompt -> Reply, parse: string -> Result<Diary, string>, clock: int -> string
  )
    requires CivilDate.ValidTime(now)
    requires DayGrouping.Lookup(g1, TargetDate(ctx, CivilDate.IsoDate(now).value))
             == DayGrouping.Lookup(g2, TargetDate(ctx, CivilDate.IsoDate(now).value))
    ensures GenerateDiary(g1, ctx, keySet, now, model, parse, clock)
            == GenerateDiary(g2, ctx, keySet, now, model, parse, clock)
  {
  }

  // ---------------------------------------------------------------------------
  // rewriteDiaryEntry
  // ---------------------------------------------------------------------------

  /** What the rewrite prompt is made of: the user's instruction and the
      original entry. */
  datatype RewritePrompt = RewritePrompt(instruction: string, content: string)

  const RewriteFailed: string := "Rewrite failed: "

  /** `rewriteDiaryEntry(content, customPrompt)`: `model` answers the prompt
      (already raced against the 10-second timer). The answer comes back
      trimmed; every failure is rethrown behind `Rewrite failed: `. */
  function RewriteEntry(
    keySet: bool,
    content: string,
    instruction: string,
    model: RewritePrompt -> Race
  ): (r: Result<string, string>)
    ensures !keySet ==> r == Err(RewriteFailed + MissingKey)
    ensures keySet && model(RewritePrompt(instruction, content)) == Expired ==> r == Err(RewriteFailed + TimedOut)
    ensures r.Ok? ==> exists raw :: model(RewritePrompt(instruction, content)) == Settled(Answered(raw))
                                    && r.value == Trim(raw)
    ensures r.Ok? ==> r.value == [] || (!IsWhite(r.value[0]) && !IsWhite(r.value[|r.value| - 1]))
    ensures r.Err? ==> |r.error| >= |RewriteFailed| && r.error[..|RewriteFailed|] == RewriteFailed
    // a settled call: its answer trimmed, or its rejection's message behind the prefix
    ensures var race := model(RewritePrompt(instruction, content));
            keySet && race.Settled? && race.reply.Answered? ==> r == Ok(Trim(race.reply.text))
    ensures var race := model(RewritePrompt(instruction, content));
            keySet && race.Settled? && race.reply.Rejected? ==> r == Err(RewriteFailed + race.reply.message)
    // the answer returned is already trimmed: trimming it again changes nothing
    ensures r.Ok? ==> Trim(r.value) == r.value
  {
    if !keySet then Err(RewriteFailed + MissingKey)
    else
      var race := model(RewritePrompt(instruction, content));
      match WithTimeout(race)
      case Rejected(message) => Err(RewriteFailed + message)
      case Answered(raw) =>
        assert race == Settled(Answered(raw));
        TrimIdempotent(raw);
        Ok(Trim(raw))
  }

  /** A model answer padded with white space is returned without it. */
  lemma RewriteStripsPadding(content: string, instruction: string, model: RewritePrompt -> Race,
                             w1: string, text: string, w2: string)
    requires AllWhite(w1) && AllWhite(w2)
    requires text == [] || (!IsWhite(text[0]) && !IsWhite(text[|text| - 1]))
    requires model(RewritePrompt(instruction, content)) == Settled(Answered(w1 + text + w2))
    ensures RewriteEntry(true, content, instruction, model) == Ok(text)
  {
    TrimPadded(w1, text, w2);
  }
}

=== FILE: grouping.dfy ===
/**
 * `groupByDay` (src/routes/diary.js): partitions a history by the UTC date
 * of each item's timestamp, falling back to the current time for an item
 * whose timestamp is missing or 0. The groups come in the order their dates
 * first appear, as the keys of the JavaScript object do (a date string is
 * never an integer-like key).
 */
module DayGrouping {
  import opened Outcomes
  import opened Records
  import CivilDate

  /** One entry of the `byDay` object: a date and that date's items. */
  datatype Group = Group(date: string, items: seq<HistoryItem>)

  /** The time an item is dated by: its timestamp, or `now` when the
      timestamp is missing or zero. */
  function EffectiveTime(item: HistoryItem, now: int): int
  {
    match item.timestamp
    case None => now
    case Some(t) => if t == 0 then now else t
  }

  /** Every item's time is a valid date, so `toISOString` throws for none. */
  predicate AllDated(h: seq<HistoryItem>, now: int)
  {
    forall i | 0 <= i < |h| :: CivilDate.ValidTime(EffectiveTime(h[i], now))
  }

  /** The group key of an item: the UTC `YYYY-MM-DD` date of its time. */
  function DateOf(item: HistoryItem, now: int): string
    requires CivilDate.ValidTime(EffectiveTime(item, now))
  {
    CivilDate.IsoDate(EffectiveTime(item, now)).value
  }

  /** `byDay[d]`: the items of the group dated `d`, if there is one. */
  function Lookup(groups: seq<Group>, d: string): Option<seq<HistoryItem>>
  {
    if |groups| == 0 then None
    else if groups[0].date == d then Some(groups[0].items)
    else Lookup(groups[1..], d)
  }

  /** The dates that have a group. */
  ghost function DateSet(groups: seq<Group>): set<string>
  {
    set g | g in groups :: g.date
  }

  ghost predicate DistinctDates(groups: seq<Group>)
  {
    forall i, j :: 0 <= i < j < |groups| ==> groups[i].date != groups[j].date
  }

  /** Appends `x` to the group of date `d`, opening a new group at the end
      when there is none yet. */
  function Push(groups: seq<Group>, d: string, x: HistoryItem): seq<Group>
  {
    if |groups| == 0 then [Group(d, [x])]
    else if groups[0].date == d then [Group(d, groups[0].items + [x])] + groups[1..]
    else [groups[0]] + Push(groups[1..], d, x)
  }

  /** A push appends `x` to the group of `d`, creating it when missing, and
      leaves every other date's group as it was. */
  lemma {:induction false} PushLookup(groups: seq<Group>, d: string, x: HistoryItem, e: string)
    ensures Lookup(Push(groups, d, x), e) == if e == d then Some(Lookup(groups, d).GetOr([]) + [x]) else Lookup(groups, e)
    decreases |groups|
  {
    var r := Push(groups, d, x);
    if |groups| == 0 {
      assert r[1..] == [];
      assert Lookup(groups, d).GetOr([]) + [x] == [x];
    } else if groups[0].date == d {
      assert r[1..] == groups[1..];
    } else {
      assert r[1..] == Push(groups[1..], d, x);
      PushLookup(groups[1..], d, x, e);
    }
  }

  /** A push adds the date `d` and no other. */
  lemma {:induction false} PushDates(groups: seq<Group>, d: string, x: HistoryItem)
    ensures DateSet(Push(groups, d, x)) == DateSet(groups) + {d}
    decreases |groups|
  {
    var r := Push(groups, d, x);
    if |groups| == 0 {
    } else {
      assert groups == [groups[0]] + groups[1..];
      assert DateSet(groups) == {groups[0].date} + DateSet(groups[1..]);
      if groups[0].date == d {
        assert r == [Group(d, groups[0].items + [x])] + groups[1..];
        assert DateSet(r) == {d} + DateSet(groups[1..]);
      } else {
        PushDates(groups[1..], d, x);
        assert DateSet(r) == {groups[0].date} + DateSet(Push(groups[1..], d, x));
      }
    }
  }

  /** A push keeps the dates distinct. */
  lemma {:induction false} PushDistinct(groups: seq<Group>, d: string, x: HistoryItem)
    requires DistinctDates(groups)
    ensures DistinctDates(Push(groups, d, x))
    decreases |groups|
  {
    if |groups| == 0 {
      assert Push(groups, d, x) == [Group(d, [x])];
    } else {
      var g := groups[0];
      var tail := groups[1..];
      DistinctTail(groups);
      if g.date == d {
        assert Push(groups, d, x) == [Group(d, g.items + [x])] + tail;
        DistinctCons(Group(d, g.items + [x]), tail);
      } else {
        PushDistinct(tail, d, x);
        PushDates(tail, d, x);
        assert Push(groups, d, x) == [g] + Push(tail, d, x);
        DistinctCons(g, Push(tail, d, x));
      }
    }
  }

  /** The tail of a sequence of distinctly dated groups is distinctly dated
      and does not hold the head's date. */
  lemma DistinctTail(groups: seq<Group>)
    requires DistinctDates(groups) && |groups| > 0
    ensures DistinctDates(groups[1..])
    ensures groups[0].date !in DateSet(groups[1..])
  {
    var tail := groups[1..];
    forall i, j | 0 <= i < j < |tail| ensures tail[i].date != tail[j].date {
      assert tail[i] == groups[i + 1] && tail[j] == groups[j + 1];
    }
    forall g | g in tail ensures g.date != groups[0].date {
      var j :| 0 <= j < |tail| && tail[j] == g;
      assert groups[j + 1] == g;
    }
  }

  /** A group whose date is new in front of distinctly dated groups. */
  lemma DistinctCons(g: Group, t: seq<Group>)
    requires DistinctDates(t) && g.date !in DateSet(t)
    ensures DistinctDates([g] + t)
  {
    var r := [g] + t;
    forall i, j | 0 <= i < j < |r| ensures r[i].date != r[j].date {
      assert r[j] == t[j - 1];
      if i == 0 {
        assert t[j - 1] in t;
      } else {
        assert r[i] == t[i - 1];
      }
    }
  }

  /** The date of each item, in order. */
  function Dates(h: seq<HistoryItem>, now: int): (r: seq<string>)
    requires AllDated(h, now)
    ensures |r| == |h|
    ensures forall i :: 0 <= i < |h| ==> r[i] == DateOf(h[i], now)
  {
    seq(|h|, i requires 0 <= i < |h| => DateOf(h[i], now))
  }

  /** The groups of `h` whose items carry the dates `ds`, built by pushing
      the items in order. */
  function PartitionBy(h: seq<HistoryItem>, ds: seq<string>): (r: seq<Group>)
    requires |ds| == |h|
    ensures DistinctDates(r)
    decreases |h|
  {
    if |h| == 0 then []
    else
      var p := PartitionBy(h[..|h| - 1], ds[..|h| - 1]);
      PushDistinct(p, ds[|h| - 1], h[|h| - 1]);
      Push(p, ds[|h| - 1], h[|h| - 1])
  }

  /** `groupByDay(history)`: the groups, or the RangeError `toISOString`
      throws when some item's time is not a valid date. */
  function GroupByDay(h: seq<HistoryItem>, now: int): (r: Result<seq<Group>, string>)
    ensures r.Ok? <==> AllDated(h, now)
    ensures r.Err? ==> r.error == CivilDate.InvalidTime
    ensures r.Ok? ==> DistinctDates(r.value)
  {
    if AllDated(h, now) then Ok(PartitionBy(h, Dates(h, now))) else Err(CivilDate.InvalidTime)
  }

  // ---------------------------------------------------------------------------
  // The partition's contract
  // ---------------------------------------------------------------------------

  /** The items of `h` whose date is `d`, in their order in `h`: the
      independent description of a group. */
  function ItemsOn(h: seq<HistoryItem>, ds: seq<string>, d: string): seq<HistoryItem>
    requires |ds| == |h|
    decreases |h|
  {
    if |h| == 0 then []
    else ItemsOn(h[..|h| - 1], ds[..|h| - 1], d) + (if ds[|h| - 1] == d then [h[|h| - 1]] else [])
  }

  /** Each date's group holds exactly the items of that date, in input
      order, and a date has a group iff some item carries it. */
  lemma {:induction false} PartitionGroups(h: seq<HistoryItem>, ds: seq<string>, d: string)
    requires |ds| == |h|
    ensures Lookup(PartitionBy(h, ds), d) == if ItemsOn(h, ds, d) == [] then None else Some(ItemsOn(h, ds, d))
    decreases |h|
  {
    if |h| > 0 {
      var n := |h| - 1;
      var p := PartitionBy(h[..n], ds[..n]);
      var before := ItemsOn(h[..n], ds[..n], d);
      PartitionGroups(h[..n], ds[..n], d);
      assert Lookup(p, d) == if before == [] then None else Some(before);
      PushLookup(p, ds[n], h[n], d);
      if ds[n] == d {
        assert Lookup(PartitionBy(h, ds), d) == Some(Lookup(p, d).GetOr([]) + [h[n]]);
      } else {
        assert Lookup(PartitionBy(h, ds), d) == Lookup(p, d);
        assert ItemsOn(h, ds, d) == before + [];
        assert before + [] == before;
      }
    }
  }

  lemma {:induction false} ItemsOnContains(h: seq<HistoryItem>, ds: seq<string>, k: int)
    requires |ds| == |h| && 0 <= k < |h|
    ensures h[k] in ItemsOn(h, ds, ds[k])
    decreases |h|
  {
    var n := |h| - 1;
    if k < n {
      assert h[..n][k] == h[k] && ds[..n][k] == ds[k];
      ItemsOnContains(h[..n], ds[..n], k);
    }
  }

  lemma {:induction false} ItemsOnMembers(h: seq<HistoryItem>, ds: seq<string>, d: string, x: HistoryItem)
    requires |ds| == |h|
    requires x in ItemsOn(h, ds, d)
    ensures exists k :: 0 <= k < |h| && h[k] == x && ds[k] == d
    decreases |h|
  {
    var n := |h| - 1;
    if x in ItemsOn(h[..n], ds[..n], d) {
      ItemsOnMembers(h[..n], ds[..n], d, x);
      var k :| 0 <= k < n && h[..n][k] == x && ds[..n][k] == d;
      assert h[k] == x && ds[k] == d;
    } else {
      assert h[n] == x && ds[n] == d;
    }
  }

  /** The date of every item names a group, and that group contains the item. */
  lemma ItemInItsGroup(h: seq<HistoryItem>, now: int, k: int)
    requires AllDated(h, now) && 0 <= k < |h|
    ensures GroupByDay(h, now).Ok?
    ensures Lookup(GroupByDay(h, now).value, DateOf(h[k], now)).Some?
    ensures h[k] in Lookup(GroupByDay(h, now).value, DateOf(h[k], now)).value
  {
    var ds := Dates(h, now);
    ItemsOnContains(h, ds, k);
    PartitionGroups(h, ds, ds[k]);
  }

  /** Every member of the group dated `d` is an input item whose date is `d`,
      so no item sits in the group of another date. */
  lemma GroupMembersShareDate(h: seq<HistoryItem>, now: int, d: string, x: HistoryItem)
    requires AllDated(h, now)
    requires Lookup(GroupByDay(h, now).value, d).Some?
    requires x in Lookup(GroupByDay(h, now).value, d).value
    ensures exists k :: 0 <= k < |h| && h[k] == x && DateOf(h[k], now) == d
  {
    var ds := Dates(h, now);
    PartitionGroups(h, ds, d);
    ItemsOnMembers(h, ds, d, x);
  }

  lemma {:induction false} ItemsOnAbsent(h: seq<HistoryItem>, ds: seq<string>, d: string)
    requires |ds| == |h|
    requires forall k :: 0 <= k < |ds| ==> ds[k] != d
    ensures ItemsOn(h, ds, d) == []
    decreases |h|
  {
    if |h| > 0 {
      var n := |h| - 1;
      assert forall k :: 0 <= k < n ==> ds[..n][k] == ds[k];
      ItemsOnAbsent(h[..n], ds[..n], d);
    }
  }

  /** A date has a group exactly when some item of the history carries it. */
  lemma GroupExistsIff(h: seq<HistoryItem>, now: int, d: string)
    requires AllDated(h, now)
    ensures GroupByDay(h, now).Ok?
    ensures Lookup(GroupByDay(h, now).value, d).Some? <==> exists k :: 0 <= k < |h| && DateOf(h[k], now) == d
  {
    if Lookup(GroupByDay(h, now).value, d).Some? {
      GroupHasWitness(h, now, d);
    } else if exists k :: 0 <= k < |h| && DateOf(h[k], now) == d {
      var k :| 0 <= k < |h| && DateOf(h[k], now) == d;
      ItemInItsGroup(h, now, k);
    }
  }

  /** A group exists only for a date some item carries. */
  lemma GroupHasWitness(h: seq<HistoryItem>, now: int, d: string)
    requires AllDated(h, now)
    requires Lookup(GroupByDay(h, now).value, d).Some?
    ensures exists k :: 0 <= k < |h| && DateOf(h[k], now) == d
  {
    var ds := Dates(h, now);
    PartitionGroups(h, ds, d);
    if forall k :: 0 <= k < |ds| ==> ds[k] != d {
      ItemsOnAbsent(h, ds, d);
    }
    var k :| 0 <= k < |ds| && ds[k] == d;
    assert DateOf(h[k], now) == d;
  }

  /** All items of all groups, group after group. */
  function Flatten(groups: seq<Group>): seq<HistoryItem>
  {
    if |groups| == 0 then [] else groups[0].items + Flatten(groups[1..])
  }

  lemma {:induction false} PushCounts(groups: seq<Group>, d: string, x: HistoryItem)
    requires DistinctDates(groups)
    ensures multiset(Flatten(Push(groups, d, x))) == multiset(Flatten(groups)) + multiset{x}
    decreases |groups|
  {
    if |groups| == 0 {
    } else if groups[0].date == d {
      var r := Push(groups, d, x);
      assert r[1..] == groups[1..];
    } else {
      var r := Push(groups, d, x);
      assert r[1..] == Push(groups[1..], d, x);
      PushCounts(groups[1..], d, x);
    }
  }

  lemma {:induction false} PartitionByComplete(h: seq<HistoryItem>, ds: seq<string>)
    requires |ds| == |h|
    ensures multiset(Flatten(PartitionBy(h, ds))) == multiset(h)
    decreases |h|
  {
    if |h| > 0 {
      var n := |h| - 1;
      PartitionByComplete(h[..n], ds[..n]);
      PushCounts(PartitionBy(h[..n], ds[..n]), ds[n], h[n]);
      assert h == h[..n] + [h[n]];
    }
  }

  /** The groups together hold every input item exactly as often as the
      input does, so the group sizes sum to the input length. */
  lemma PartitionComplete(h: seq<HistoryItem>, now: int)
    requires AllDated(h, now)
    ensures GroupByDay(h, now).Ok?
    ensures multiset(Flatten(GroupByDay(h, now).value)) == multiset(h)
    ensures |Flatten(GroupByDay(h, now).value)| == |h|
  {
    var g := GroupByDay(h, now).value;
    PartitionByComplete(h, Dates(h, now));
    assert |multiset(Flatten(g))| == |multiset(h)|;
  }

  /** An item with no usable timestamp lands in the group of `now`'s date. */
  lemma UndatedItemGoesToToday(item: HistoryItem, now: int)
    requires item.timestamp.None? || item.timestamp == Some(0)
    requires CivilDate.ValidTime(now)
    ensures DateOf(item, now) == CivilDate.IsoDate(now).value
  {
  }

  /** Two items share a group exactly when their times fall on the same UTC day. */
  lemma SameGroupIffSameDay(x: HistoryItem, y: HistoryItem, now: int)
    requires CivilDate.ValidTime(EffectiveTime(x, now)) && CivilDate.ValidTime(EffectiveTime(y, now))
    ensures DateOf(x, now) == DateOf(y, now)
            <==> CivilDate.DayNumber(EffectiveTime(x, now)) == CivilDate.DayNumber(EffectiveTime(y, now))
  {
    CivilDate.SameDateIffSameDay(EffectiveTime(x, now), EffectiveTime(y, now));
  }
}

=== FILE: images.dfy ===
/**
 * The `POST /generate` handler that `src/routes/images.js` defines on its
 * router (the server never mounts that router): validation of the
 * request body, the request sent to the image model, and the reply built
 * from the provider's answer. The HTTP call is a parameter: a function from
 * the request sent to the way the call ended.
 */
module Images {
  import opened Outcomes
  import opened JsText

  /** A body field as JSON delivers it. `Other` is any array or object,
      carried as its string conversion (`String(v)`), which is all
      `parseInt` looks at. */
  datatype Field =
    | Undefined
    | Null
    | Bool(b: bool)
    | Number(n: int)
    | Str(s: string)
    | Other(text: string)

  /** The fields of `req.body` the handler reads. */
  datatype ImageBody = ImageBody(
    prompt: Field,
    numberOfImages: Field,
    aspectRatio: Field,
    imageSize: Field,
    personGeneration: Field
  )

  /** What is sent to the `:predict` endpoint: the trimmed prompt and the
      generation parameters. */
  datatype ImagenRequest = ImagenRequest(
    prompt: string,
    sampleCount: int,
    aspectRatio: Field,
    imageSize: Field,
    personGeneration: Field
  )

  /** One element of `predictions`. */
  datatype Prediction = Prediction(bytesBase64Encoded: Option<string>)

  /** How the provider call ended. */
  datatype ProviderOutcome =
    | Threw(message: string)                                   // fetch or body parsing threw
    | HttpError(status: int, errorMessage: Option<string>)     // `!response.ok`, with `error.message` if any
    | Delivered(predictions: Option<seq<Prediction>>)          // `None`: missing or not an array

  /** The JSON body of the reply; a `Generated` body is always sent with
      `success: true`. */
  datatype ReplyBody =
    | Failure(error: string, success: Option<bool>)            // `success: false` when present
    | Generated(images: seq<string>, count: int, prompt: string)

  datatype ImageReply = ImageReply(status: int, body: ReplyBody)

  const MaxPromptLength: nat := 3600
  const MaxImages: int := 4

  const NotConfigured: string := "Image generation service not available. GEMINI_API_KEY not configured."
  const PromptRequired: string := "Prompt is required"
  const PromptTooLong: string := "Prompt is too long. Maximum length is approximately 3600 characters."
  const NoImages: string := "No images generated in response"
  const UnexpectedFormat: string := "Unexpected response format from Imagen API"
  const GenericFailure: string := "Failed to generate image"

  /** A destructuring default: it replaces `undefined` only, not `null`. */
  function OrDefault(f: Field, default: Field): (r: Field)
    ensures r.Undefined? ==> default.Undefined?
  {
    if f.Undefined? then default else f
  }

  /** `parseInt(v)`: `parseInt` reads the string conversion of its argument. */
  function ParseIntOf(v: Field): Option<int>
  {
    match v
    case Undefined => ParseInt("undefined")
    case Null => ParseInt("null")
    case Bool(b) => ParseInt(if b then "true" else "false")
    case Number(n) => ParseInt(Decimal(n))
    case Str(s) => ParseInt(s)
    case Other(text) => ParseInt(text)
  }

  /** The number of images asked for: the number read, clamped to 1..4, with
      1 when nothing can be read and for 0. */
  function SampleCount(v: Field): (r: int)
    ensures 1 <= r <= MaxImages
    ensures ParseIntOf(v).Some? && 1 <= ParseIntOf(v).value <= MaxImages ==> r == ParseIntOf(v).value
    ensures ParseIntOf(v).None? || ParseIntOf(v).value <= 1 ==> r == 1
    ensures ParseIntOf(v).Some? && ParseIntOf(v).value >= MaxImages ==> r == MaxImages
  {
    var n := match ParseIntOf(v) { case None => 1 case Some(k) => if k == 0 then 1 else k };
    var atLeastOne := if n < 1 then 1 else n;
    if atLeastOne > MaxImages then MaxImages else atLeastOne
  }

  /** A number asks for itself, clamped to 1..4. */
  lemma SampleCountOfNumber(n: int)
    ensures SampleCount(Number(n)) == if n < 1 then 1 else if n > MaxImages then MaxImages else n
  {
    ParseIntDecimal(n);
  }

  /** With `numberOfImages` left out one image is asked for. */
  lemma SampleCountDefault()
    ensures SampleCount(OrDefault(Undefined, Number(1))) == 1
  {
    SampleCountOfNumber(1);
  }

  /** The prompt check: a string whose trimmed form is not empty. */
  predicate PromptGiven(p: Field)
  {
    p.Str? && Trim(p.s) != ""
  }

  /** The request sent for a body whose prompt passed the checks, with the
      defaults `1`, `'1:1'`, `'1K'` and `'allow_all'` in place of missing fields. */
  function RequestFor(body: ImageBody): (r: ImagenRequest)
    requires PromptGiven(body.prompt)
    // the prompt sent is the body's prompt with its white ends cut off
    ensures r.prompt == Trim(body.prompt.s)
    ensures r.prompt != "" && !IsWhite(r.prompt[0]) && !IsWhite(r.prompt[|r.prompt| - 1])
    // the count asked for is the body's number of images, 1 when left out, clamped to 1..4
    ensures r.sampleCount == SampleCount(OrDefault(body.numberOfImages, Number(1)))
    ensures body.numberOfImages.Undefined? ==> r.sampleCount == 1
    ensures 1 <= r.sampleCount <= MaxImages
    ensures body.aspectRatio.Undefined? ==> r.aspectRatio == Str("1:1")
    ensures body.imageSize.Undefined? ==> r.imageSize == Str("1K")
    ensures body.personGeneration.Undefined? ==> r.personGeneration == Str("allow_all")
    ensures !body.aspectRatio.Undefined? ==> r.aspectRatio == body.aspectRatio
    ensures !body.imageSize.Undefined? ==> r.imageSize == body.imageSize
    ensures !body.personGeneration.Undefined? ==> r.personGeneration == body.personGeneration
  {
    SampleCountDefault();
    ImagenRequest(
      Trim(body.prompt.s),
      SampleCount(OrDefault(body.numberOfImages, Number(1))),
      OrDefault(body.aspectRatio, Str("1:1")),
      OrDefault(body.imageSize, Str("1K")),
      OrDefault(body.personGeneration, Str("allow_all")))
  }

  /** The images of the predictions: each prediction's encoded bytes, keeping
      only those present and non-empty. */
  function ImagesOf(ps: seq<Prediction>): (r: seq<string>)
    ensures |r| <= |ps|
    ensures forall k :: 0 <= k < |r| ==> r[k] != ""
    ensures forall k :: 0 <= k < |r| ==> exists j :: 0 <= j < |ps| && ps[j].bytesBase64Encoded == Some(r[k])
    ensures r == [] <==> forall j :: 0 <= j < |ps| ==> ps[j].bytesBase64Encoded.None? || ps[j].bytesBase64Encoded == Some("")
  {
    ImageListFacts(ps);
    ImageList(ps)
  }

  /** The image of one prediction, when it has a non-empty one. */
  function ImageOf(p: Prediction): seq<string>
  {
    if p.bytesBase64Encoded.Some? && p.bytesBase64Encoded.value != "" then [p.bytesBase64Encoded.value] else []
  }

  /** The recursion behind `ImagesOf`, kept free of a contract so that proofs
      unfolding it stay small. */
  function ImageList(ps: seq<Prediction>): seq<string>
  {
    if |ps| == 0 then [] else ImageOf(ps[0]) + ImageList(ps[1..])
  }

  lemma {:induction false} ImageListFacts(ps: seq<Prediction>)
    ensures |ImageList(ps)| <= |ps|
    ensures forall k :: 0 <= k < |ImageList(ps)| ==> ImageList(ps)[k] != ""
    ensures forall k :: 0 <= k < |ImageList(ps)| ==> exists j :: 0 <= j < |ps| && ps[j].bytesBase64Encoded == Some(ImageList(ps)[k])
    ensures ImageList(ps) == [] <==> forall j :: 0 <= j < |ps| ==> ps[j].bytesBase64Encoded.None? || ps[j].bytesBase64Encoded == Some("")
  {
    if |ps| > 0 {
      var rest := ImageList(ps[1..]);
      var head := ImageOf(ps[0]);
      var r := ImageList(ps);
      ImageListFacts(ps[1..]);
      assert r == head + rest;
      assert forall j :: 1 <= j < |ps| ==> ps[1..][j - 1] == ps[j];
      forall k | 0 <= k < |r| ensures exists j :: 0 <= j < |ps| && ps[j].bytesBase64Encoded == Some(r[k]) {
        if |head| == 1 && k == 0 {
          assert ps[0].bytesBase64Encoded == Some(r[k]);
        } else {
          var k' := k - |head|;
          assert r[k] == rest[k'];
          var j :| 0 <= j < |ps[1..]| && ps[1..][j].bytesBase64Encoded == Some(rest[k']);
          assert ps[j + 1].bytesBase64Encoded == Some(r[k]);
        }
      }
    }
  }

  /** When every prediction carries an image, all of them are returned, in order. */
  lemma {:induction false} ImagesOfComplete(ps: seq<Prediction>)
    requires forall j :: 0 <= j < |ps| ==> ps[j].bytesBase64Encoded.Some? && ps[j].bytesBase64Encoded.value != ""
    ensures |ImagesOf(ps)| == |ps|
    ensures forall k :: 0 <= k < |ps| ==> ImagesOf(ps)[k] == ps[k].bytesBase64Encoded.value
  {
    if |ps| > 0 {
      ImagesOfComplete(ps[1..]);
    }
  }

  /** Filtering a concatenation filters each part: the images keep the order
      of their predictions. */
  lemma ImagesOfAppend(a: seq<Prediction>, b: seq<Prediction>)
    ensures ImagesOf(a + b) == ImagesOf(a) + ImagesOf(b)
  {
    ImageListAppend(a, b);
  }

  lemma {:induction false} ImageListAppend(a: seq<Prediction>, b: seq<Prediction>)
    ensures ImageList(a + b) == ImageList(a) + ImageList(b)
  {
    if |a| == 0 {
      assert a + b == b;
    } else {
      assert (a + b)[0] == a[0];
      assert (a + b)[1..] == a[1..] + b;
      ImageListAppend(a[1..], b);
    }
  }

  /** One prediction yields its image when it has a non-empty one, and nothing
      otherwise. */
  lemma ImagesOfSingle(p: Prediction)
    ensures ImagesOf([p]) == if p.bytesBase64Encoded.Some? && p.bytesBase64Encoded.value != ""
                             then [p.bytesBase64Encoded.value] else []
  {
    assert [p][1..] == [];
  }

  /** The reply built from the provider's answer. */
  function ReplyOf(outcome: ProviderOutcome, prompt: string): (r: ImageReply)
    ensures r.body.Generated? ==> outcome.Delivered? && outcome.predictions.Some?
                                  && r.status == 200
                                  && r.body.images == ImagesOf(outcome.predictions.value)
                                  && r.body.count == |r.body.images| >= 1
                                  && r.body.prompt == prompt
    ensures r.body.Failure? ==> r.body.success == Some(false) && r.body.error != ""
    // a throw is a 500 carrying the thrown message, or the generic text for an empty one
    ensures outcome.Threw? ==> r.status == 500 && r.body.Failure?
                               && (outcome.message != "" ==> r.body.error == outcome.message)
                               && (outcome.message == "" ==> r.body.error == GenericFailure)
    // a refused call passes its status through, with the provider's message or one naming the status
    ensures outcome.HttpError? ==> r.status == outcome.status && r.body.Failure?
    ensures outcome.HttpError? && outcome.errorMessage.Some? && outcome.errorMessage.value != ""
            ==> r.body.error == outcome.errorMessage.value
    ensures outcome.HttpError? && (outcome.errorMessage.None? || outcome.errorMessage.value == "")
            ==> r.body.error == "Imagen API error: " + Decimal(outcome.status)
    // a delivered answer succeeds exactly when it holds a predictions array with an image in it
    ensures outcome.Delivered? ==> (r.body.Generated? <==> outcome.predictions.Some? && ImagesOf(outcome.predictions.value) != [])
    ensures outcome.Delivered? ==> (r.status == 200 <==> r.body.Generated?) && (r.status == 200 || r.status == 500)
    ensures outcome.Delivered? && outcome.predictions.None? ==> r.body.error == UnexpectedFormat
    ensures outcome.Delivered? && outcome.predictions.Some? && ImagesOf(outcome.predictions.value) == []
            ==> r.body.error == NoImages
  {
    match outcome
    case Threw(message) =>
      ImageReply(500, Failure(if message == "" then GenericFailure else message, Some(false)))
    case HttpError(status, message) =>
      var text := if message.Some? && message.value != "" then message.value
                  else "Imagen API error: " + Decimal(status);
      ImageReply(status, Failure(text, Some(false)))
    case Delivered(predictions) =>
      if predictions.None? then ImageReply(500, Failure(UnexpectedFormat, Some(false)))
      else
        var images := ImagesOf(predictions.value);
        if |images| == 0 then ImageReply(500, Failure(NoImages, Some(false)))
        else ImageReply(200, Generated(images, |images|, prompt))
  }

  /** The handler. `keySet` says whether `GEMINI_API_KEY` is configured and
      `imagen` is the `fetch` of the `:predict` endpoint. */
  function GenerateImages(keySet: bool, body: ImageBody, imagen: ImagenRequest -> ProviderOutcome): (r: ImageReply)
    // the checks, in the order the handler makes them
    ensures !keySet ==> r == ImageReply(503, Failure(NotConfigured, None))
    ensures keySet && !PromptGiven(body.prompt) ==> r == ImageReply(400, Failure(PromptRequired, None))
    ensures keySet && PromptGiven(body.prompt) && Utf16Length(body.prompt.s) > MaxPromptLength
            ==> r == ImageReply(400, Failure(PromptTooLong, None))
    // past the checks, the provider sees the request for this body
    ensures keySet && PromptGiven(body.prompt) && Utf16Length(body.prompt.s) <= MaxPromptLength
            ==> r == ReplyOf(imagen(RequestFor(body)), Trim(body.prompt.s))
    // images only ever come back for a valid prompt, with the trimmed prompt echoed
    ensures r.body.Generated? ==> keySet && PromptGiven(body.prompt)
                                  && Utf16Length(body.prompt.s) <= MaxPromptLength
                                  && r.body.prompt == Trim(body.prompt.s)
                                  && 1 <= r.body.count == |r.body.images|
  {
    if !keySet then ImageReply(503, Failure(NotConfigured, None))
    else if !PromptGiven(body.prompt) then ImageReply(400, Failure(PromptRequired, None))
    else if Utf16Length(body.prompt.s) > MaxPromptLength then ImageReply(400, Failure(PromptTooLong, None))
    else ReplyOf(imagen(RequestFor(body)), Trim(body.prompt.s))
  }

  /** A prompt of white space only is refused as missing, not as too long. */
  lemma BlankPromptIsMissing(w: string, body: ImageBody, imagen: ImagenRequest -> ProviderOutcome)
    requires AllWhite(w) && body.prompt == Str(w)
    ensures GenerateImages(true, body, imagen) == ImageReply(400, Failure(PromptRequired, None))
  {
    TrimPadded(w, "", []);
    assert w + "" + [] == w;
  }

  /** The length limit counts the untrimmed prompt: padding alone can push a
      prompt over it even when its trimmed text is short. */
  lemma LengthCountsPadding(body: ImageBody, imagen: ImagenRequest -> ProviderOutcome, w: string, text: string)
    requires AllWhite(w) && |w| > MaxPromptLength
    requires text != [] && !IsWhite(text[0]) && !IsWhite(text[|text| - 1])
    requires body.prompt == Str(w + text)
    ensures GenerateImages(true, body, imagen) == ImageReply(400, Failure(PromptTooLong, None))
  {
    TrimPadded(w, text, []);
    assert w + text + [] == w + text;
  }
}

=== FILE: jstext.dfy ===
/**
 * The JavaScript string built-ins the backend leans on, written out over
 * `seq<char>`: `Array.prototype.join`, `String.prototype.includes`,
 * `String.prototype.trim`, `String(n)` for integral numbers, `parseInt`
 * without a radix, and the UTF-16 `length` of a string.
 */
module JsText {
  import opened Outcomes

  // ---------------------------------------------------------------------------
  // join
  // ---------------------------------------------------------------------------

  /** The parts with `sep` between each two neighbours. */
  function Join(parts: seq<string>, sep: string): string
    decreases |parts|
  {
    if |parts| == 0 then ""
    else if |parts| == 1 then parts[0]
    else parts[0] + sep + Join(parts[1..], sep)
  }

  /** With a non-empty separator, a join is empty exactly when there is nothing
      to join or the single part is itself empty. */
  lemma {:induction false} JoinEmptyIff(parts: seq<string>, sep: string)
    requires sep != ""
    ensures Join(parts, sep) == "" <==> (|parts| == 0 || (|parts| == 1 && parts[0] == ""))
  {
    if |parts| >= 2 {
      assert |Join(parts, sep)| >= |sep|;
    }
  }

  /** Joining a list that ends in `last` appends the separator and `last`. */
  lemma {:induction false} JoinSnoc(parts: seq<string>, last: string, sep: string)
    requires |parts| >= 1
    ensures Join(parts + [last], sep) == Join(parts, sep) + sep + last
    decreases |parts|
  {
    if |parts| == 1 {
      assert (parts + [last])[1..] == [last];
    } else {
      assert (parts + [last])[1..] == parts[1..] + [last];
      JoinSnoc(parts[1..], last, sep);
    }
  }

  // ---------------------------------------------------------------------------
  // includes
  // ---------------------------------------------------------------------------

  /** Whether `p` occurs in `s`, computed by sliding `p` along `s`. */
  predicate Contains(s: string, p: string)
    decreases |s|
  {
    if |p| > |s| then false
    else if s[..|p|] == p then true
    else Contains(s[1..], p)
  }

  /** `p` occurs in `s` starting at index `i`. */
  ghost predicate OccursAt(s: string, p: string, i: int)
  {
    0 <= i && i + |p| <= |s| && s[i..i + |p|] == p
  }

  /** The sliding search answers exactly "does `p` occur somewhere in `s`". */
  lemma {:induction false} ContainsIffOccurs(s: string, p: string)
    ensures Contains(s, p) <==> exists i :: OccursAt(s, p, i)
    decreases |s|
  {
    if |p| > |s| {
    } else if s[..|p|] == p {
      assert OccursAt(s, p, 0);
    } else {
      ContainsIffOccurs(s[1..], p);
      if exists i :: OccursAt(s, p, i) {
        var i :| OccursAt(s, p, i);
        assert s[0..|p|] == s[..|p|];
        assert i != 0;
        assert s[1..][i - 1..i - 1 + |p|] == s[i..i + |p|];
        assert OccursAt(s[1..], p, i - 1);
      }
      if Contains(s[1..], p) {
        var i :| OccursAt(s[1..], p, i);
        assert s[1..][i..i + |p|] == s[i + 1..i + 1 + |p|];
        assert OccursAt(s, p, i + 1);
      }
    }
  }

  // ---------------------------------------------------------------------------
  // trim
  // ---------------------------------------------------------------------------

  /** The characters `trim` removes: ECMAScript WhiteSpace (tab, vertical tab,
      form feed, space, no-break space, byte-order mark and the Unicode space
      separators) and LineTerminator (LF, CR, LS, PS). */
  predicate IsWhite(c: char)
  {
    var n := c as int;
    n == 0x09 || n == 0x0A || n == 0x0B || n == 0x0C || n == 0x0D || n == 0x20
    || n == 0xA0 || n == 0x1680 || (0x2000 <= n <= 0x200A)
    || n == 0x2028 || n == 0x2029 || n == 0x202F || n == 0x205F
    || n == 0x3000 || n == 0xFEFF
  }

  ghost predicate AllWhite(s: string)
  {
    forall i :: 0 <= i < |s| ==> IsWhite(s[i])
  }

  /** Index of the first non-white character at or after `i`. */
  function SkipWhite(s: string, i: nat): (k: nat)
    requires i <= |s|
    ensures i <= k <= |s|
    ensures forall j :: i <= j < k ==> IsWhite(s[j])
    ensures k == |s| || !IsWhite(s[k])
    decreases |s| - i
  {
    if i == |s| || !IsWhite(s[i]) then i else SkipWhite(s, i + 1)
  }

  /** End of `s[lo..j]` once its trailing white characters are dropped. */
  function SkipWhiteBack(s: string, lo: nat, j: nat): (k: nat)
    requires lo <= j <= |s|
    ensures lo <= k <= j
    ensures forall m :: k <= m < j ==> IsWhite(s[m])
    ensures k == lo || !IsWhite(s[k - 1])
    decreases j
  {
    if j == lo || !IsWhite(s[j - 1]) then j else SkipWhiteBack(s, lo, j - 1)
  }

  /** White space cut from both ends: the result is a slice of `s` with only white characters
      cut on either side, and it neither starts nor ends with one. */
  function Trim(s: string): (r: string)
    ensures |r| <= |s|
    ensures r == [] || (!IsWhite(r[0]) && !IsWhite(r[|r| - 1]))
    ensures exists a :: 0 <= a <= |s| - |r| && s[a..a + |r|] == r
                         && AllWhite(s[..a]) && AllWhite(s[a + |r|..])
  {
    var a := SkipWhite(s, 0);
    var b := SkipWhiteBack(s, a, |s|);
    assert s[a..a + (b - a)] == s[a..b];
    assert AllWhite(s[..a]);
    assert AllWhite(s[b..]);
    s[a..b]
  }

  /** `trim` undoes white padding around a string that has no white ends:
      the slice it keeps is determined by `s` alone. */
  lemma TrimPadded(w1: string, r: string, w2: string)
    requires AllWhite(w1) && AllWhite(w2)
    requires r == [] || (!IsWhite(r[0]) && !IsWhite(r[|r| - 1]))
    ensures Trim(w1 + r + w2) == r
  {
    var s := w1 + r + w2;
    var a := SkipWhite(s, 0);
    if r == [] {
      assert AllWhite(s) by {
        forall i | 0 <= i < |s| ensures IsWhite(s[i]) {
          if i < |w1| { assert s[i] == w1[i]; } else { assert s[i] == w2[i - |w1|]; }
        }
      }
      assert a == |s|;
    } else {
      assert s[|w1|] == r[0];
      forall j | 0 <= j < |w1| ensures IsWhite(s[j]) { assert s[j] == w1[j]; }
      assert a == |w1|;
      var b := SkipWhiteBack(s, a, |s|);
      assert s[|w1| + |r| - 1] == r[|r| - 1];
      forall m | |w1| + |r| <= m < |s| ensures IsWhite(s[m]) { assert s[m] == w2[m - |w1| - |r|]; }
      assert b == |w1| + |r|;
      assert s[a..b] == r;
    }
  }

  /** Trimming twice is trimming once. */
  lemma TrimIdempotent(s: string)
    ensures Trim(Trim(s)) == Trim(s)
  {
    TrimPadded("", Trim(s), "");
    assert "" + Trim(s) + "" == Trim(s);
  }

  // ---------------------------------------------------------------------------
  // String(n) for integral numbers
  // ---------------------------------------------------------------------------

  predicate IsDecimalDigit(c: char) { '0' <= c <= '9' }

  function DigitChar(d: nat): (c: char)
    requires d < 10
    ensures IsDecimalDigit(c) && c as int - '0' as int == d
  {
    (48 + d) as char
  }

  /** Decimal digits of `n`, most significant first, with no leading zero. */
  function NatDigits(n: nat): (r: string)
    ensures 1 <= |r|
    ensures forall i :: 0 <= i < |r| ==> IsDecimalDigit(r[i])
    ensures n >= 10 ==> r[0] != '0'
    decreases n
  {
    if n < 10 then [DigitChar(n)] else NatDigits(n / 10) + [DigitChar(n % 10)]
  }

  /** `String(n)` for an integral number `n`. */
  function Decimal(n: int): (r: string)
    ensures 1 <= |r|
  {
    if n < 0 then "-" + NatDigits(-n) else NatDigits(n)
  }

  // ---------------------------------------------------------------------------
  // Reading digits back
  // ---------------------------------------------------------------------------

  /** Value of a digit character in radix 36 (`0`-`9`, `a`-`z`, `A`-`Z`);
      36 for any other character, which is a digit of no radix. */
  function DigitValue(c: char): nat
  {
    if '0' <= c <= '9' then c as int - '0' as int
    else if 'a' <= c <= 'z' then c as int - 'a' as int + 10
    else if 'A' <= c <= 'Z' then c as int - 'A' as int + 10
    else 36
  }

  predicate IsRadixDigit(c: char, radix: nat) { DigitValue(c) < radix }

  predicate AllRadixDigits(s: string, radix: nat)
  {
    forall i :: 0 <= i < |s| ==> IsRadixDigit(s[i], radix)
  }

  /** Value of a string of digits, most significant first. */
  function ValueOf(s: string, radix: nat): nat
    decreases |s|
  {
    if |s| == 0 then 0
    else ValueOf(s[..|s| - 1], radix) * radix + DigitValue(s[|s| - 1])
  }

  /** Index just past the run of radix digits that starts at `i`. */
  function DigitRun(s: string, radix: nat, i: nat): (k: nat)
    requires i <= |s|
    ensures i <= k <= |s|
    ensures forall j :: i <= j < k ==> IsRadixDigit(s[j], radix)
    ensures k == |s| || !IsRadixDigit(s[k], radix)
    decreases |s| - i
  {
    if i == |s| || !IsRadixDigit(s[i], radix) then i else DigitRun(s, radix, i + 1)
  }

  /** The decimal digits of `n` read back as `n`. */
  lemma {:induction false} ValueOfNatDigits(n: nat)
    ensures ValueOf(NatDigits(n), 10) == n
    decreases n
  {
    if n >= 10 {
      var s := NatDigits(n);
      assert s[..|s| - 1] == NatDigits(n / 10);
      ValueOfNatDigits(n / 10);
    }
  }

  /** Leading zeros do not change the value of a digit string. */
  lemma {:induction false} ValueOfLeadingZeros(z: string, s: string, radix: nat)
    requires forall i :: 0 <= i < |z| ==> z[i] == '0'
    ensures ValueOf(z + s, radix) == ValueOf(s, radix)
    decreases |s|
  {
    if |s| == 0 {
      ValueOfZeros(z, radix);
      assert z + s == z;
    } else {
      assert (z + s)[..|z + s| - 1] == z + s[..|s| - 1];
      ValueOfLeadingZeros(z, s[..|s| - 1], radix);
    }
  }

  /** Two decimal digit strings of one length with one value are the same
      string: a fixed-width field has exactly one spelling per value. */
  lemma {:induction false} ValueOfInjective(a: string, b: string)
    requires |a| == |b| && AllRadixDigits(a, 10) && AllRadixDigits(b, 10)
    requires ValueOf(a, 10) == ValueOf(b, 10)
    ensures a == b
    decreases |a|
  {
    if |a| > 0 {
      var n := |a| - 1;
      var x, y := ValueOf(a[..n], 10), ValueOf(b[..n], 10);
      var dx, dy := DigitValue(a[n]), DigitValue(b[n]);
      assert dx < 10 && dy < 10;
      assert x * 10 + dx == y * 10 + dy;
      LastDigit(x, dx, y, dy);
      ValueOfInjective(a[..n], b[..n]);
      assert a == a[..n] + [a[n]] && b == b[..n] + [b[n]];
    }
  }

  /** A number's last decimal digit and the rest are determined by it. */
  lemma LastDigit(x: nat, dx: nat, y: nat, dy: nat)
    requires dx < 10 && dy < 10 && x * 10 + dx == y * 10 + dy
    ensures x == y && dx == dy
  {
    assert 10 * (x - y) == dy - dx;
  }

  lemma {:induction false} ValueOfZeros(z: string, radix: nat)
    requires forall i :: 0 <= i < |z| ==> z[i] == '0'
    ensures ValueOf(z, radix) == 0
    decreases |z|
  {
    if |z| > 0 {
      ValueOfZeros(z[..|z| - 1], radix);
    }
  }

  // ---------------------------------------------------------------------------
  // parseInt
  // ---------------------------------------------------------------------------

  /** The digit run at the start of `u`, read in radix 16 after a `0x`/`0X`
      prefix and in radix 10 otherwise; `None` when the run is empty. */
  function ParseMagnitude(u: string): Option<nat>
  {
    var hex := |u| >= 2 && u[0] == '0' && (u[1] == 'x' || u[1] == 'X');
    var radix := if hex then 16 else 10;
    var v := if hex then u[2..] else u;
    var k := DigitRun(v, radix, 0);
    if k == 0 then None else Some(ValueOf(v[..k], radix))
  }

  /** `parseInt(s)` with no radix: skip leading white space, read an optional
      sign, then the magnitude. `None` stands for `NaN` (no digit at all). */
  function ParseInt(s: string): (r: Option<int>)
  {
    var t := s[SkipWhite(s, 0)..];
    if |t| > 0 && t[0] == '-' then
      var m := ParseMagnitude(t[1..]);
      if m.None? then None else Some(-(m.value as int))
    else
      var m := ParseMagnitude(if |t| > 0 && t[0] == '+' then t[1..] else t);
      if m.None? then None else Some(m.value as int)
  }

  /** The decimal digits of `m` read back as `m`. */
  lemma ParseMagnitudeDigits(m: nat)
    ensures ParseMagnitude(NatDigits(m)) == Some(m)
  {
    var d := NatDigits(m);
    assert |d| == 1 || d[0] != '0';
    DigitRunAll(d, 10, 0);
    assert d[..|d|] == d;
    ValueOfNatDigits(m);
  }

  /** Reading back the decimal form of an
      integer gives the integer. */
  lemma ParseIntDecimal(n: int)
    ensures ParseInt(Decimal(n)) == Some(n)
  {
    if n < 0 {
      ParseIntNegative(-n);
    } else {
      ParseIntNonNegative(n);
    }
  }

  lemma ParseIntNegative(m: nat)
    requires m > 0
    ensures ParseInt(Decimal(-(m as int))) == Some(-(m as int))
  {
    var s := Decimal(-(m as int));
    assert s == "-" + NatDigits(m);
    assert SkipWhite(s, 0) == 0 by {
      assert !IsWhite(s[0]);
    }
    assert s[0..] == s;
    assert s[1..] == NatDigits(m);
    ParseMagnitudeDigits(m);
  }

  lemma ParseIntNonNegative(m: nat)
    ensures ParseInt(Decimal(m)) == Some(m)
  {
    var s := Decimal(m);
    assert s == NatDigits(m);
    assert IsDecimalDigit(s[0]);
    assert SkipWhite(s, 0) == 0 by {
      assert !IsWhite(s[0]);
    }
    assert s[0..] == s;
    ParseMagnitudeDigits(m);
  }

  lemma {:induction false} DigitRunAll(s: string, radix: nat, i: nat)
    requires i <= |s|
    requires forall j :: i <= j < |s| ==> IsRadixDigit(s[j], radix)
    ensures DigitRun(s, radix, i) == |s|
    decreases |s| - i
  {
    if i < |s| {
      DigitRunAll(s, radix, i + 1);
    }
  }

  // ---------------------------------------------------------------------------
  // length
  // ---------------------------------------------------------------------------

  /** `s.length`: JavaScript counts UTF-16 code units, so a character outside
      the Basic Multilingual Plane counts twice. */
  function Utf16Length(s: string): (n: nat)
    ensures |s| <= n <= 2 * |s|
    ensures (forall i :: 0 <= i < |s| ==> s[i] as int <= 0xFFFF) <==> n == |s|
  {
    if |s| == 0 then 0
    else
      assert forall i :: 1 <= i < |s| ==> s[1..][i - 1] == s[i];
      (if s[0] as int > 0xFFFF then 2 else 1) + Utf16Length(s[1..])
  }

  /** The length of a concatenation is the sum of the lengths. */
  lemma {:induction false} Utf16LengthAppend(a: string, b: string)
    ensures Utf16Length(a + b) == Utf16Length(a) + Utf16Length(b)
  {
    if |a| == 0 {
      assert a + b == b;
    } else {
      assert (a + b)[0] == a[0];
      assert (a + b)[1..] == a[1..] + b;
      Utf16LengthAppend(a[1..], b);
    }
  }

  /** One character is one code unit, or two outside the Basic Multilingual
      Plane. */
  lemma Utf16LengthChar(c: char)
    ensures Utf16Length([c]) == if c as int > 0xFFFF then 2 else 1
  {
    assert [c][1..] == [];
  }
}

=== FILE: ledger.dfy ===
/**
 * The history ledger merge of `addHistory` (src/store.js): deduplicate the
 * incoming batch against the stored items, concatenate, stable-sort newest
 * first and keep the first 500.
 *
 * The two sides compute their identity keys differently, as the store does:
 * the stored side concatenates url and timestamp with no defaults, the
 * incoming side first replaces a missing url, and a missing or zero
 * timestamp, by the empty string.
 */
module Ledger {
  import opened Outcomes
  import opened JsText
  import opened Records

  /** Most items a user's ledger keeps. */
  const HistoryLimit: nat := 500

  // ---------------------------------------------------------------------------
  // Identity keys
  // ---------------------------------------------------------------------------

  /** A value JavaScript's `+` can produce from a url and a timestamp: a
      string, or `NaN` when the url is `undefined` and `+` adds numerically. */
  datatype Key = Text(s: string) | NaN

  /** Stored side: the url followed by the timestamp, where a missing
      timestamp is rendered as the text `undefined` and a missing url makes
      the sum `NaN`. */
  function StoredKey(i: HistoryItem): (r: Key)
    ensures r.NaN? <==> i.url.None?
    ensures i.url.Some? ==> |r.s| > |i.url.value| && r.s[..|i.url.value|] == i.url.value
  {
    match i.url
    case None => NaN
    case Some(u) =>
      match i.timestamp
      case None => Text(u + "undefined")
      case Some(t) => Text(u + Decimal(t))
  }

  /** Incoming side: the url followed by the timestamp, where a missing url
      and a missing or zero timestamp each count as the empty string. */
  function IncomingKey(i: HistoryItem): (r: string)
    ensures |r| >= |i.url.GetOr("")| && r[..|i.url.GetOr("")|] == i.url.GetOr("")
    ensures i.timestamp.None? || i.timestamp.value == 0 <==> r == i.url.GetOr("")
  {
    IncomingText(i)
  }

  /** The text of `IncomingKey`, kept free of a contract so that the
      deduplication proofs, which evaluate it for every item, stay small. */
  function IncomingText(i: HistoryItem): string
  {
    var u := i.url.GetOr("");
    match i.timestamp
    case None => u
    case Some(t) => if t == 0 then u else u + Decimal(t)
  }

  /** The stored keys of the ledger, as a set. */
  function StoredKeys(existing: seq<HistoryItem>): set<Key>
  {
    set x | x in existing :: StoredKey(x)
  }

  /** The two sides agree on an item exactly when it has a url and a non-zero
      timestamp. */
  lemma KeysAgreeIff(i: HistoryItem)
    ensures StoredKey(i) == Text(IncomingKey(i))
            <==> i.url.Some? && i.timestamp.Some? && i.timestamp.value != 0
  {
    if i.url.Some? && i.timestamp.None? {
      assert |StoredKey(i).s| == |i.url.value| + |"undefined"|;
    }
  }

  /** After the url, each key carries the timestamp: its decimal text reads
      back as the timestamp, and a missing one is `undefined` on the stored
      side. */
  lemma KeysCarryTimestamp(i: HistoryItem)
    ensures i.url.Some? && i.timestamp.Some?
            ==> ParseInt(StoredKey(i).s[|i.url.value|..]) == Some(i.timestamp.value)
    ensures i.url.Some? && i.timestamp.None? ==> StoredKey(i).s[|i.url.value|..] == "undefined"
    ensures i.timestamp.Some? && i.timestamp.value != 0
            ==> ParseInt(IncomingKey(i)[|i.url.GetOr("")|..]) == Some(i.timestamp.value)
  {
    if i.timestamp.Some? {
      var u := i.url.GetOr("");
      var d := Decimal(i.timestamp.value);
      ParseIntDecimal(i.timestamp.value);
      assert (u + d)[|u|..] == d;
    }
    if i.url.Some? && i.timestamp.None? {
      assert (i.url.value + "undefined")[|i.url.value|..] == "undefined";
    }
  }

  /** One url visited at two different times gives two different keys on
      each side, so neither visit hides the other. */
  lemma DistinctTimesDistinctKeys(a: HistoryItem, b: HistoryItem)
    requires a.url == b.url
    requires a.timestamp.Some? && b.timestamp.Some? && a.timestamp.value != b.timestamp.value
    ensures a.url.Some? ==> StoredKey(a) != StoredKey(b)
    ensures a.timestamp.value != 0 && b.timestamp.value != 0 ==> IncomingKey(a) != IncomingKey(b)
  {
    KeysCarryTimestamp(a);
    KeysCarryTimestamp(b);
  }

  lemma StoredKeysSingleton(x: HistoryItem)
    ensures StoredKeys([x]) == {StoredKey(x)}
  {
    assert x in [x];
  }

  /** An incoming item survives deduplication when its key was not seen. */
  predicate IsFresh(seen: set<Key>, i: HistoryItem)
  {
    Text(IncomingText(i)) !in seen
  }

  /** The deduplication filter: keeps, in order and with their multiplicity,
      exactly the items whose incoming key was not seen. Items are checked
      against `seen` only, never against each other. */
  function FilterFresh(seen: set<Key>, items: seq<HistoryItem>): (r: seq<HistoryItem>)
    ensures |r| <= |items|
    ensures forall x :: multiset(r)[x] == if IsFresh(seen, x) then multiset(items)[x] else 0
    ensures forall x :: x in r <==> x in items && IsFresh(seen, x)
  {
    FreshListCounts(seen, items);
    FreshList(seen, items)
  }

  /** The recursion behind `FilterFresh`, kept free of a contract so that
      proofs unfolding it stay small. */
  function FreshList(seen: set<Key>, items: seq<HistoryItem>): seq<HistoryItem>
  {
    if |items| == 0 then []
    else (if IsFresh(seen, items[0]) then [items[0]] else []) + FreshList(seen, items[1..])
  }

  /** `FreshList` keeps exactly the fresh items, with their multiplicity. */
  lemma {:induction false} FreshListCounts(seen: set<Key>, items: seq<HistoryItem>)
    ensures |FreshList(seen, items)| <= |items|
    ensures forall x :: multiset(FreshList(seen, items))[x] == if IsFresh(seen, x) then multiset(items)[x] else 0
  {
    if |items| > 0 {
      var h := items[0];
      var t := items[1..];
      var head := if IsFresh(seen, h) then [h] else [];
      FreshListCounts(seen, t);
      assert FreshList(seen, items) == head + FreshList(seen, t);
      assert multiset(items) == multiset{h} + multiset(t) by {
        assert items == [h] + t;
      }
      assert multiset(FreshList(seen, items)) == multiset(head) + multiset(FreshList(seen, t));
    }
  }

  /** Filtering a concatenation filters each part, so the kept items stay in
      their batch order. */
  lemma FilterFreshAppend(seen: set<Key>, a: seq<HistoryItem>, b: seq<HistoryItem>)
    ensures FilterFresh(seen, a + b) == FilterFresh(seen, a) + FilterFresh(seen, b)
  {
    FreshListAppend(seen, a, b);
  }

  lemma {:induction false} FreshListAppend(seen: set<Key>, a: seq<HistoryItem>, b: seq<HistoryItem>)
    ensures FreshList(seen, a + b) == FreshList(seen, a) + FreshList(seen, b)
  {
    if |a| == 0 {
      assert a + b == b;
    } else {
      var head := if IsFresh(seen, a[0]) then [a[0]] else [];
      assert (a + b)[0] == a[0];
      assert (a + b)[1..] == a[1..] + b;
      assert FreshList(seen, a + b) == head + FreshList(seen, a[1..] + b);
      FreshListAppend(seen, a[1..], b);
      assert FreshList(seen, a) == head + FreshList(seen, a[1..]);
    }
  }

  /** One item is kept exactly when it is fresh. */
  lemma FilterFreshSingle(seen: set<Key>, x: HistoryItem)
    ensures FilterFresh(seen, [x]) == if IsFresh(seen, x) then [x] else []
  {
    assert [x][1..] == [];
  }

  /** The incoming items `addHistory` keeps. */
  function FreshItems(existing: seq<HistoryItem>, items: seq<HistoryItem>): seq<HistoryItem>
  {
    FilterFresh(StoredKeys(existing), items)
  }

  // ---------------------------------------------------------------------------
  // Newest-first stable sort
  // ---------------------------------------------------------------------------

  /** The sort key: the timestamp, with 0 for a missing one. */
  function SortKey(i: HistoryItem): int
  {
    i.timestamp.GetOr(0)
  }

  ghost predicate SortedDesc(s: seq<HistoryItem>)
  {
    forall i, j :: 0 <= i < j < |s| ==> SortKey(s[i]) >= SortKey(s[j])
  }

  /** Inserts `x` after every element whose key is at least its own. */
  function Insert(x: HistoryItem, s: seq<HistoryItem>): seq<HistoryItem>
    decreases |s|
  {
    if |s| == 0 then [x]
    else if SortKey(s[0]) >= SortKey(x) then [s[0]] + Insert(x, s[1..])
    else [x] + s
  }

  /** Insertion adds exactly one copy of `x`. */
  lemma {:induction false} InsertCount(x: HistoryItem, s: seq<HistoryItem>)
    ensures |Insert(x, s)| == |s| + 1
    ensures multiset(Insert(x, s)) == multiset(s) + multiset{x}
    decreases |s|
  {
    if |s| > 0 && SortKey(s[0]) >= SortKey(x) {
      var rest := Insert(x, s[1..]);
      InsertCount(x, s[1..]);
      assert Insert(x, s) == [s[0]] + rest;
      assert s == [s[0]] + s[1..];
      calc {
        multiset(Insert(x, s));
        multiset([s[0]]) + multiset(rest);
        multiset([s[0]]) + (multiset(s[1..]) + multiset{x});
        multiset([s[0]] + s[1..]) + multiset{x};
      }
    }
  }

  /** Insertion introduces no key above the bound its inputs respect. */
  lemma {:induction false} InsertBounded(x: HistoryItem, s: seq<HistoryItem>, bound: int)
    requires SortKey(x) <= bound
    requires forall j :: 0 <= j < |s| ==> SortKey(s[j]) <= bound
    ensures forall j :: 0 <= j < |Insert(x, s)| ==> SortKey(Insert(x, s)[j]) <= bound
    decreases |s|
  {
    if |s| > 0 && SortKey(s[0]) >= SortKey(x) {
      var rest := Insert(x, s[1..]);
      InsertBounded(x, s[1..], bound);
      assert Insert(x, s) == [s[0]] + rest;
    }
  }

  /** A head whose key bounds a sorted tail gives a sorted sequence. */
  lemma SortedCons(y: HistoryItem, t: seq<HistoryItem>)
    requires SortedDesc(t)
    requires forall j :: 0 <= j < |t| ==> SortKey(t[j]) <= SortKey(y)
    ensures SortedDesc([y] + t)
  {
    var r := [y] + t;
    forall i, j | 0 <= i < j < |r| ensures SortKey(r[i]) >= SortKey(r[j]) {
      assert r[j] == t[j - 1];
      if i > 0 {
        assert r[i] == t[i - 1];
      }
    }
  }

  /** Insertion into a newest-first sequence keeps it newest first. */
  lemma {:induction false} InsertSorted(x: HistoryItem, s: seq<HistoryItem>)
    requires SortedDesc(s)
    ensures SortedDesc(Insert(x, s))
    decreases |s|
  {
    if |s| > 0 {
      if SortKey(s[0]) >= SortKey(x) {
        var tail := s[1..];
        assert SortedDesc(tail) by {
          forall i, j | 0 <= i < j < |tail| ensures SortKey(tail[i]) >= SortKey(tail[j]) {
            assert tail[i] == s[i + 1] && tail[j] == s[j + 1];
          }
        }
        assert forall j :: 0 <= j < |tail| ==> SortKey(tail[j]) <= SortKey(s[0]) by {
          forall j | 0 <= j < |tail| ensures SortKey(tail[j]) <= SortKey(s[0]) {
            assert tail[j] == s[j + 1];
          }
        }
        InsertSorted(x, tail);
        InsertBounded(x, tail, SortKey(s[0]));
        assert Insert(x, s) == [s[0]] + Insert(x, tail);
        SortedCons(s[0], Insert(x, tail));
      } else {
        assert Insert(x, s) == [x] + s;
        SortedCons(x, s);
      }
    } else {
      assert Insert(x, s) == [x];
    }
  }

  /** The stable insertion sort: each element in turn is placed after all
      elements already placed whose key is at least its own. */
  function InsertionSort(s: seq<HistoryItem>): seq<HistoryItem>
    decreases |s|
  {
    if |s| == 0 then [] else Insert(s[|s| - 1], InsertionSort(s[..|s| - 1]))
  }

  lemma {:induction false} InsertionSortFacts(s: seq<HistoryItem>)
    ensures |InsertionSort(s)| == |s|
    ensures multiset(InsertionSort(s)) == multiset(s)
    ensures SortedDesc(InsertionSort(s))
    decreases |s|
  {
    if |s| > 0 {
      var init := s[..|s| - 1];
      var x := s[|s| - 1];
      var sorted := InsertionSort(init);
      assert InsertionSort(s) == Insert(x, sorted);
      InsertionSortFacts(init);
      InsertCount(x, sorted);
      InsertSorted(x, sorted);
      assert multiset(s) == multiset(init) + multiset{x} by {
        assert s == init + [x];
      }
    }
  }

  /** The newest-first sort by `SortKey`: a permutation of `s`, computed by
      the stable insertion sort that a stable comparator sort agrees with. */
  function SortDesc(s: seq<HistoryItem>): (r: seq<HistoryItem>)
    ensures |r| == |s|
    ensures multiset(r) == multiset(s)
    ensures SortedDesc(r)
  {
    InsertionSortFacts(s);
    InsertionSort(s)
  }

  /** The items of `s` with sort key `k`, in their order in `s`. */
  function WithKey(s: seq<HistoryItem>, k: int): seq<HistoryItem>
    decreases |s|
  {
    if |s| == 0 then []
    else (if SortKey(s[0]) == k then [s[0]] else []) + WithKey(s[1..], k)
  }

  /** A stable newest-first ordering of `input`: sorted, and items sharing a
      key keep their relative input order. */
  ghost predicate IsStableSortDesc(input: seq<HistoryItem>, output: seq<HistoryItem>)
  {
    SortedDesc(output) && forall k :: WithKey(output, k) == WithKey(input, k)
  }

  lemma {:induction false} WithKeyAppend(a: seq<HistoryItem>, b: seq<HistoryItem>, k: int)
    ensures WithKey(a + b, k) == WithKey(a, k) + WithKey(b, k)
    decreases |a|
  {
    if |a| == 0 {
      assert a + b == b;
    } else {
      var head: seq<HistoryItem> := if SortKey(a[0]) == k then [a[0]] else [];
      assert a + b == [a[0]] + (a[1..] + b);
      WithKeyCons(a[0], a[1..] + b, k);
      WithKeyAppend(a[1..], b, k);
      assert a == [a[0]] + a[1..];
      WithKeyCons(a[0], a[1..], k);
      calc {
        WithKey(a + b, k);
        head + WithKey(a[1..] + b, k);
        head + (WithKey(a[1..], k) + WithKey(b, k));
        (head + WithKey(a[1..], k)) + WithKey(b, k);
      }
    }
  }

  /** In a newest-first sequence whose keys are all below `k`, no item has key `k`. */
  lemma {:induction false} WithKeyAbsent(s: seq<HistoryItem>, k: int)
    requires forall j :: 0 <= j < |s| ==> SortKey(s[j]) < k
    ensures WithKey(s, k) == []
    decreases |s|
  {
    if |s| > 0 {
      WithKeyAbsent(s[1..], k);
    }
  }

  /** Insertion appends `x` to the items of its key and leaves every other
      key's items as they were. */
  lemma {:induction false} InsertStable(x: HistoryItem, s: seq<HistoryItem>, k: int)
    requires SortedDesc(s)
    ensures WithKey(Insert(x, s), k) == WithKey(s, k) + (if SortKey(x) == k then [x] else [])
    decreases |s|
  {
    if |s| == 0 {
      WithKeyCons(x, [], k);
    } else if SortKey(s[0]) >= SortKey(x) {
      SortedTail(s);
      InsertStable(x, s[1..], k);
      InsertStablePast(x, s, k);
    } else {
      InsertStableFront(x, s, k);
    }
  }

  /** The tail of a newest-first sequence is newest first. */
  lemma SortedTail(s: seq<HistoryItem>)
    requires SortedDesc(s) && |s| > 0
    ensures SortedDesc(s[1..])
    ensures forall j :: 0 <= j < |s[1..]| ==> SortKey(s[1..][j]) <= SortKey(s[0])
  {
    var tail := s[1..];
    forall i, j | 0 <= i < j < |tail| ensures SortKey(tail[i]) >= SortKey(tail[j]) {
      assert tail[i] == s[i + 1] && tail[j] == s[j + 1];
    }
    forall j | 0 <= j < |tail| ensures SortKey(tail[j]) <= SortKey(s[0]) {
      assert tail[j] == s[j + 1];
    }
  }

  /** The step of `InsertStable` where `x` goes past the head. */
  lemma InsertStablePast(x: HistoryItem, s: seq<HistoryItem>, k: int)
    requires |s| > 0 && SortKey(s[0]) >= SortKey(x)
    requires WithKey(Insert(x, s[1..]), k) == WithKey(s[1..], k) + (if SortKey(x) == k then [x] else [])
    ensures WithKey(Insert(x, s), k) == WithKey(s, k) + (if SortKey(x) == k then [x] else [])
  {
    var last: seq<HistoryItem> := if SortKey(x) == k then [x] else [];
    var tail := s[1..];
    var t := Insert(x, tail);
    var head: seq<HistoryItem> := if SortKey(s[0]) == k then [s[0]] else [];
    assert Insert(x, s) == [s[0]] + t;
    WithKeyCons(s[0], t, k);
    assert s == [s[0]] + tail;
    WithKeyCons(s[0], tail, k);
    calc {
      WithKey(Insert(x, s), k);
      head + WithKey(t, k);
      head + (WithKey(tail, k) + last);
      (head + WithKey(tail, k)) + last;
      WithKey(s, k) + last;
    }
  }

  /** The step of `InsertStable` where `x` goes in front: everything behind it
      has a smaller key. */
  lemma InsertStableFront(x: HistoryItem, s: seq<HistoryItem>, k: int)
    requires SortedDesc(s) && |s| > 0 && SortKey(s[0]) < SortKey(x)
    ensures WithKey(Insert(x, s), k) == WithKey(s, k) + (if SortKey(x) == k then [x] else [])
  {
    assert Insert(x, s) == [x] + s;
    WithKeyCons(x, s, k);
    if SortKey(x) == k {
      assert forall j :: 0 <= j < |s| ==> SortKey(s[j]) < k by {
        assert forall j :: 0 <= j < |s| ==> SortKey(s[j]) <= SortKey(s[0]);
      }
      WithKeyAbsent(s, k);
    }
  }

  lemma WithKeyCons(y: HistoryItem, t: seq<HistoryItem>, k: int)
    ensures WithKey([y] + t, k) == (if SortKey(y) == k then [y] else []) + WithKey(t, k)
  {
    assert ([y] + t)[0] == y;
    assert ([y] + t)[1..] == t;
  }

  /** The sort is stable: for every key, the items with that key come out in
      the order they went in. */
  lemma {:induction false} SortDescStable(s: seq<HistoryItem>, k: int)
    ensures WithKey(InsertionSort(s), k) == WithKey(s, k)
    decreases |s|
  {
    if |s| > 0 {
      var init := s[..|s| - 1];
      var x := s[|s| - 1];
      var sortedInit := InsertionSort(init);
      var last: seq<HistoryItem> := if SortKey(x) == k then [x] else [];
      SortDescStable(init, k);
      InsertionSortFacts(init);
      InsertStable(x, sortedInit, k);
      assert s == init + [x];
      WithKeyAppend(init, [x], k);
      WithKeyCons(x, [], k);
      assert WithKey([x], k) == last + [];
      calc {
        WithKey(InsertionSort(s), k);
        WithKey(Insert(x, sortedInit), k);
        WithKey(sortedInit, k) + last;
        WithKey(init, k) + last;
        WithKey(init, k) + WithKey([x], k);
        WithKey(s, k);
      }
    }
  }

  /** `SortDesc` is a stable newest-first sort. */
  lemma SortDescIsStableSort(s: seq<HistoryItem>)
    ensures IsStableSortDesc(s, SortDesc(s))
  {
    assert SortDesc(s) == InsertionSort(s);
    forall k ensures WithKey(SortDesc(s), k) == WithKey(s, k) {
      SortDescStable(s, k);
    }
  }

  /** A sequence has an item with key `k` iff its `k`-items are not empty. */
  lemma {:induction false} WithKeyNonEmpty(s: seq<HistoryItem>, j: int)
    requires 0 <= j < |s|
    ensures WithKey(s, SortKey(s[j])) != []
    decreases |s|
  {
    if j > 0 {
      WithKeyNonEmpty(s[1..], j - 1);
      assert s[1..][j - 1] == s[j];
    }
  }

  lemma {:induction false} WithKeyMember(s: seq<HistoryItem>, k: int)
    requires WithKey(s, k) != []
    ensures exists j :: 0 <= j < |s| && SortKey(s[j]) == k
    decreases |s|
  {
    if SortKey(s[0]) != k {
      WithKeyMember(s[1..], k);
      var j :| 0 <= j < |s[1..]| && SortKey(s[1..][j]) == k;
      assert SortKey(s[j + 1]) == k;
    }
  }

  /** A stable newest-first sort has exactly one possible result: two
      newest-first sequences with the same items per key, in the same order
      per key, are equal. */
  lemma {:induction false} StableSortUnique(a: seq<HistoryItem>, b: seq<HistoryItem>)
    requires SortedDesc(a) && SortedDesc(b)
    requires forall k :: WithKey(a, k) == WithKey(b, k)
    ensures a == b
    decreases |a|
  {
    if |a| == 0 {
      if |b| > 0 {
        WithKeyNonEmpty(b, 0);
        assert false;
      }
    } else if |b| == 0 {
      WithKeyNonEmpty(a, 0);
      assert false;
    } else {
      var ka := SortKey(a[0]);
      var kb := SortKey(b[0]);
      if ka < kb {
        WithKeyNonEmpty(b, 0);
        WithKeyMember(a, kb);
        assert false;
      } else if kb < ka {
        WithKeyNonEmpty(a, 0);
        WithKeyMember(b, ka);
        assert false;
      } else {
        assert a == [a[0]] + a[1..];
        assert b == [b[0]] + b[1..];
        WithKeyCons(a[0], a[1..], ka);
        WithKeyCons(b[0], b[1..], ka);
        assert WithKey(a, ka) == WithKey(b, ka);
        assert WithKey(a, ka)[0] == a[0];
        assert a[0] == b[0];
        forall k ensures WithKey(a[1..], k) == WithKey(b[1..], k) {
          assert WithKey(a, k) == WithKey(b, k);
          WithKeyCons(a[0], a[1..], k);
          WithKeyCons(b[0], b[1..], k);
          if k == ka {
            assert [a[0]] + WithKey(a[1..], k) == [a[0]] + WithKey(b[1..], k);
            assert ([a[0]] + WithKey(a[1..], k))[1..] == WithKey(a[1..], k);
            assert ([a[0]] + WithKey(b[1..], k))[1..] == WithKey(b[1..], k);
          } else {
            assert [] + WithKey(a[1..], k) == WithKey(a[1..], k);
            assert [] + WithKey(b[1..], k) == WithKey(b[1..], k);
          }
        }
        StableSortUnique(a[1..], b[1..]);
      }
    }
  }

  // ---------------------------------------------------------------------------
  // The merge
  // ---------------------------------------------------------------------------

  /** The first `n` items of `s`, or all of them when there are fewer. */
  function Take(s: seq<HistoryItem>, n: nat): (r: seq<HistoryItem>)
    ensures |r| == if |s| <= n then |s| else n
    ensures r == s[..|r|]
    ensures |s| <= n ==> r == s
  {
    if |s| <= n then s else s[..n]
  }

  /** What `addHistory` stores and returns for the stored `existing` items and
      the incoming `items`. */
  function Merge(existing: seq<HistoryItem>, items: seq<HistoryItem>): (r: seq<HistoryItem>)
    ensures |r| == if |existing| + |FreshItems(existing, items)| <= HistoryLimit
                   then |existing| + |FreshItems(existing, items)| else HistoryLimit
    ensures SortedDesc(r)
    ensures forall x :: x in r ==> x in existing || (x in items && IsFresh(StoredKeys(existing), x))
  {
    var sorted := SortDesc(existing + FreshItems(existing, items));
    var r := Take(sorted, HistoryLimit);
    assert forall x :: x in r ==> x in multiset(sorted);
    r
  }

  /** The merge is the first `min(500, n)` items of THE stable newest-first
      sort of the stored items followed by the fresh incoming ones. */
  lemma MergeIsPrefixOfStableSort(existing: seq<HistoryItem>, items: seq<HistoryItem>, sorted: seq<HistoryItem>)
    requires IsStableSortDesc(existing + FreshItems(existing, items), sorted)
    ensures Merge(existing, items) == Take(sorted, HistoryLimit)
  {
    var input := existing + FreshItems(existing, items);
    SortDescIsStableSort(input);
    StableSortUnique(SortDesc(input), sorted);
  }

  /** First write wins: an incoming item whose incoming key matches a stored
      item's stored key never enters the ledger from the incoming side; the
      copies in the result are the stored ones. */
  lemma MergeDropsSeen(existing: seq<HistoryItem>, items: seq<HistoryItem>, y: HistoryItem)
    requires !IsFresh(StoredKeys(existing), y)
    ensures multiset(Merge(existing, items))[y] <= multiset(existing)[y]
  {
    var kept := FreshItems(existing, items);
    var sorted := SortDesc(existing + kept);
    assert multiset(sorted)[y] == multiset(existing)[y] + multiset(kept)[y];
    TakeCount(sorted, HistoryLimit, y);
  }

  /** A prefix holds no more copies of an item than the whole. */
  lemma TakeCount(s: seq<HistoryItem>, n: nat, y: HistoryItem)
    ensures multiset(Take(s, n))[y] <= multiset(s)[y]
  {
    var r := Take(s, n);
    assert s == r + s[|r|..];
  }

  /** While the limit is not reached nothing stored is lost, and every fresh
      incoming item is added as many times as it occurs in the batch, so two
      identical items in one batch both survive. */
  lemma MergeCounts(existing: seq<HistoryItem>, items: seq<HistoryItem>, x: HistoryItem)
    requires |existing| + |FreshItems(existing, items)| <= HistoryLimit
    ensures multiset(Merge(existing, items))[x]
            == multiset(existing)[x] + (if IsFresh(StoredKeys(existing), x) then multiset(items)[x] else 0)
  {
  }

  /** The stored items are all kept while the limit is not reached. */
  lemma MergeKeepsStored(existing: seq<HistoryItem>, items: seq<HistoryItem>)
    requires |existing| + |FreshItems(existing, items)| <= HistoryLimit
    ensures multiset(existing) <= multiset(Merge(existing, items))
  {
    forall x ensures multiset(existing)[x] <= multiset(Merge(existing, items))[x] {
      MergeCounts(existing, items, x);
    }
  }

  // ---------------------------------------------------------------------------
  // Consequences of the two key functions
  // ---------------------------------------------------------------------------

  /** With a url and a non-zero timestamp the two sides agree, so re-sending a
      stored item is a no-op for that item. */
  lemma KnownItemIsDropped(existing: seq<HistoryItem>, x: HistoryItem)
    requires x in existing
    requires x.url.Some? && x.timestamp.Some? && x.timestamp.value != 0
    ensures !IsFresh(StoredKeys(existing), x)
    ensures x !in FreshItems(existing, [x])
  {
    assert StoredKey(x) in StoredKeys(existing);
  }

  /** A stored item whose own key does not match it is added a second time
      when it is sent again. */
  lemma SelfMismatchReAdds(x: HistoryItem)
    requires IsFresh(StoredKeys([x]), x)
    ensures Merge([x], [x]) == [x, x]
  {
    assert FreshItems([x], [x]) == [x];
    assert [x] + [x] == [x, x];
    assert SortDesc([x, x]) == [x, x] by {
      assert [x, x][..1] == [x];
      assert InsertionSort([x]) == [x];
    }
  }

  /** A stored item without a timestamp has stored key `url + "undefined"` but
      incoming key `url`, so sending it again adds a second copy. */
  lemma TimestamplessItemIsReAdded(u: string, title: Option<string>, lv: Option<int>)
    ensures var x := HistoryItem(Some(u), title, None, lv);
            Merge([x], [x]) == [x, x]
  {
    var x := HistoryItem(Some(u), title, None, lv);
    StoredKeysSingleton(x);
    assert |u + "undefined"| != |u|;
    SelfMismatchReAdds(x);
  }

  /** A stored item with timestamp 0 has stored key `url + "0"` but incoming
      key `url`, so sending it again adds a second copy. */
  lemma ZeroTimestampItemIsReAdded(u: string, title: Option<string>, lv: Option<int>)
    ensures var x := HistoryItem(Some(u), title, Some(0), lv);
            Merge([x], [x]) == [x, x]
  {
    var x := HistoryItem(Some(u), title, Some(0), lv);
    StoredKeysSingleton(x);
    assert |u + Decimal(0)| != |u|;
    SelfMismatchReAdds(x);
  }

  /** A stored item without a url has stored key `NaN`, which no incoming
      (string) key equals, so sending it again adds a second copy. */
  lemma UrllessItemIsReAdded(title: Option<string>, t: Option<int>, lv: Option<int>)
    ensures var x := HistoryItem(None, title, t, lv);
            FreshItems([x], [x]) == [x] && Merge([x], [x]) == [x, x]
  {
    var x := HistoryItem(None, title, t, lv);
    StoredKeysSingleton(x);
    assert IsFresh(StoredKeys([x]), x);
    SelfMismatchReAdds(x);
  }

  /** Keys are plain concatenations: the stored item (`a1`, 23) shadows the
      different incoming item (`a`, 123), which is dropped. */
  lemma ConcatenatedKeysCollide()
    ensures var stored := HistoryItem(Some("a1"), None, Some(23), None);
            var incoming := HistoryItem(Some("a"), None, Some(123), None);
            stored != incoming && FreshItems([stored], [incoming]) == []
  {
    var stored := HistoryItem(Some("a1"), None, Some(23), None);
    var incoming := HistoryItem(Some("a"), None, Some(123), None);
    assert NatDigits(23) == "23" by {
      assert NatDigits(2) == "2";
    }
    assert NatDigits(123) == "123" by {
      assert NatDigits(1) == "1";
      assert NatDigits(12) == "12";
    }
    assert StoredKey(stored) == Text("a123");
    assert IncomingKey(incoming) == "a123";
    assert StoredKeys([stored]) == {Text("a123")};
  }
}

=== FILE: outcomes.dfy ===
/** Failure-carrying values shared by every module of the model. */
module Outcomes {

  /** A JavaScript value that may be `undefined`. */
  datatype Option<+T> = None | Some(value: T) {

    /** The `x ?? default` reading of an optional value. */
    function GetOr(default: T): T {
      match this
      case Some(v) => v
      case None => default
    }
  }

  /** The outcome of code that may throw: a value, or the thrown error's message. */
  datatype Result<+T, +E> = Ok(value: T) | Err(error: E)
}

=== FILE: records.dfy ===
/** The records the backend keeps per user (`src/store.js`). Fields a client
    may omit are `Option`s, standing for JavaScript's `undefined`. */
module Records {
  import opened Outcomes

  /** One visited page as the browser extension sends it. */
  datatype HistoryItem = HistoryItem(
    url: Option<string>,
    title: Option<string>,
    timestamp: Option<int>,       // epoch milliseconds
    lastVisitTime: Option<int>    // epoch milliseconds
  )

  /** One narrative entry, as the model's JSON answer supplies it. */
  datatype DiaryEntry = DiaryEntry(date: string, content: string)

  /** The stored diary document `{entries: [...]}`. */
  datatype Diary = Diary(entries: seq<DiaryEntry>)

  /** `{entries: []}`: the getter's default and every failure's answer. */
  const EmptyDiary: Diary := Diary([])

  /** The stored analysis document `{interests, suggestions, diary_summary}`. */
  datatype InterestsRecord = InterestsRecord(
    interests: Option<seq<string>>,
    suggestions: Option<seq<string>>,
    diarySummary: Option<string>
  )

  /** The user a diary, interests or content route acts for: the given id,
      with an absent or empty id falling back to the shared `default` user. */
  function EffectiveUser(userId: Option<string>): (r: string)
    ensures r != ""
    ensures userId.Some? && userId.value != "" ==> r == userId.value
    ensures userId.None? || userId.value == "" ==> r == "default"
  {
    if userId.Some? && userId.value != "" then userId.value else "default"
  }

  /** The user the history sync route acts for: its default replaces an
      absent id only, so an empty id is kept as it is. */
  function SyncUser(userId: Option<string>): (r: string)
    ensures userId.None? ==> r == "default"
    ensures userId.Some? ==> r == userId.value
  {
    userId.GetOr("default")
  }

  /** The two fallbacks differ on the empty id alone: the sync route files
      such a batch under the user `""`, which no other route reads. */
  lemma SyncUserDiffersOnEmptyOnly(userId: Option<string>)
    ensures SyncUser(userId) != EffectiveUser(userId) <==> userId == Some("")
    ensures SyncUser(Some("")) == "" && EffectiveUser(Some("")) == "default"
  {
  }
}

=== FILE: store.dfy ===
/**
 * The per-user store of `src/store.js` over one key-value map. Every record
 * lives under a namespaced key (`history:`, `diary:`, `interests:` followed
 * by the user id); the getters supply a default when nothing is stored, the
 * setters overwrite, and `addHistory` writes the ledger merge.
 */
module Store {
  import opened Outcomes
  import opened Records
  import Ledger

  /** The three kinds of document the store holds. */
  datatype Value =
    | HistoryValue(items: seq<HistoryItem>)
    | DiaryValue(diary: Diary)
    | InterestsValue(record: InterestsRecord)

  type Store = map<string, Value>

  function HistoryKey(user: string): string { "history:" + user }
  function DiaryKey(user: string): string { "diary:" + user }
  function InterestsKey(user: string): string { "interests:" + user }

  /** `{interests: [], suggestions: []}`. */
  const DefaultInterests: InterestsRecord := InterestsRecord(Some([]), Some([]), None)

  /** Keys of different namespaces never coincide, and within a namespace
      distinct users have distinct keys. */
  lemma KeysIsolated(u: string, v: string)
    ensures HistoryKey(u) != DiaryKey(v)
    ensures HistoryKey(u) != InterestsKey(v)
    ensures DiaryKey(u) != InterestsKey(v)
    ensures HistoryKey(u) == HistoryKey(v) ==> u == v
    ensures DiaryKey(u) == DiaryKey(v) ==> u == v
    ensures InterestsKey(u) == InterestsKey(v) ==> u == v
  {
    assert HistoryKey(u)[0] == 'h' && DiaryKey(v)[0] == 'd' && InterestsKey(v)[0] == 'i';
    assert DiaryKey(u)[0] == 'd';
    if HistoryKey(u) == HistoryKey(v) {
      assert u == HistoryKey(u)[8..] && v == HistoryKey(v)[8..];
    }
    if DiaryKey(u) == DiaryKey(v) {
      assert u == DiaryKey(u)[6..] && v == DiaryKey(v)[6..];
    }
    if InterestsKey(u) == InterestsKey(v) {
      assert u == InterestsKey(u)[10..] && v == InterestsKey(v)[10..];
    }
  }

  /** A write of key `k` that leaves every other key as it was. */
  ghost predicate OnlyKeyChanged(before: Store, after: Store, k: string)
  {
    forall other :: other != k ==>
      (other in after <==> other in before) && (other in before ==> after[other] == before[other])
  }

  // ---------------------------------------------------------------------------
  // History
  // ---------------------------------------------------------------------------

  /** `getHistory`: the stored ledger, or `[]` when the user has none. */
  function GetHistory(s: Store, user: string): (r: seq<HistoryItem>)
    ensures HistoryKey(user) !in s ==> r == []
  {
    var k := HistoryKey(user);
    if k in s && s[k].HistoryValue? then s[k].items else []
  }

  /** `setHistory`: stores `items` as they are, with no sorting or dedup. */
  function SetHistory(s: Store, user: string, items: seq<HistoryItem>): (r: Store)
    ensures GetHistory(r, user) == items
    ensures OnlyKeyChanged(s, r, HistoryKey(user))
  {
    s[HistoryKey(user) := HistoryValue(items)]
  }

  /** `addHistory`: merges `items` into the user's ledger, stores the result
      and returns it. */
  function AddHistory(s: Store, user: string, items: seq<HistoryItem>): (r: (Store, seq<HistoryItem>))
    ensures r.1 == Ledger.Merge(GetHistory(s, user), items)
    ensures |r.1| <= Ledger.HistoryLimit && Ledger.SortedDesc(r.1)
    ensures GetHistory(r.0, user) == r.1
    ensures OnlyKeyChanged(s, r.0, HistoryKey(user))
  {
    var merged := Ledger.Merge(GetHistory(s, user), items);
    (SetHistory(s, user, merged), merged)
  }

  // ---------------------------------------------------------------------------
  // Diary
  // ---------------------------------------------------------------------------

  /** `getDiary`: the stored diary, or `{entries: []}` when there is none. */
  function GetDiary(s: Store, user: string): (r: Diary)
    ensures DiaryKey(user) !in s ==> r == EmptyDiary
  {
    var k := DiaryKey(user);
    if k in s && s[k].DiaryValue? then s[k].diary else EmptyDiary
  }

  /** `setDiary`: overwrites the user's diary wholesale. */
  function SetDiary(s: Store, user: string, d: Diary): (r: Store)
    ensures GetDiary(r, user) == d
    ensures OnlyKeyChanged(s, r, DiaryKey(user))
  {
    s[DiaryKey(user) := DiaryValue(d)]
  }

  // ---------------------------------------------------------------------------
  // Interests
  // ---------------------------------------------------------------------------

  /** `getInterests`: the stored analysis, or `{interests: [], suggestions: []}`. */
  function GetInterests(s: Store, user: string): (r: InterestsRecord)
    ensures InterestsKey(user) !in s ==> r == DefaultInterests
  {
    var k := InterestsKey(user);
    if k in s && s[k].InterestsValue? then s[k].record else DefaultInterests
  }

  /** `setInterests`: overwrites the user's analysis wholesale. */
  function SetInterests(s: Store, user: string, rec: InterestsRecord): (r: Store)
    ensures GetInterests(r, user) == rec
    ensures OnlyKeyChanged(s, r, InterestsKey(user))
  {
    s[InterestsKey(user) := InterestsValue(rec)]
  }

  // ---------------------------------------------------------------------------
  // Isolation
  // ---------------------------------------------------------------------------

  /** A history write changes no diary, no analysis, and no other user's
      history. */
  lemma HistoryWriteIsolated(s: Store, u: string, items: seq<HistoryItem>, v: string)
    ensures var r := SetHistory(s, u, items);
            GetDiary(r, v) == GetDiary(s, v) && GetInterests(r, v) == GetInterests(s, v)
            && (v != u ==> GetHistory(r, v) == GetHistory(s, v))
  {
    KeysIsolated(u, v);
  }

  /** The same for `addHistory`, whose store is the `setHistory` of its result. */
  lemma AddHistoryIsolated(s: Store, u: string, items: seq<HistoryItem>, v: string)
    ensures var r := AddHistory(s, u, items).0;
            GetDiary(r, v) == GetDiary(s, v) && GetInterests(r, v) == GetInterests(s, v)
            && (v != u ==> GetHistory(r, v) == GetHistory(s, v))
  {
    var merged := Ledger.Merge(GetHistory(s, u), items);
    assert AddHistory(s, u, items).0 == SetHistory(s, u, merged);
    HistoryWriteIsolated(s, u, merged, v);
  }

  /** A diary write changes no history, no analysis, and no other user's diary. */
  lemma DiaryWriteIsolated(s: Store, u: string, d: Diary, v: string)
    ensures var r := SetDiary(s, u, d);
            GetHistory(r, v) == GetHistory(s, v) && GetInterests(r, v) == GetInterests(s, v)
            && (v != u ==> GetDiary(r, v) == GetDiary(s, v))
  {
    KeysIsolated(u, v);
    KeysIsolated(v, u);
  }

  /** An analysis write changes no history, no diary, and no other user's analysis. */
  lemma InterestsWriteIsolated(s: Store, u: string, rec: InterestsRecord, v: string)
    ensures var r := SetInterests(s, u, rec);
            GetHistory(r, v) == GetHistory(s, v) && GetDiary(r, v) == GetDiary(s, v)
            && (v != u ==> GetInterests(r, v) == GetInterests(s, v))
  {
    KeysIsolated(u, v);
    KeysIsolated(v, u);
  }

  /** The worked example: after syncing `a`@100, syncing `a`@100 and `b`@200
      leaves `[b, a]`, newest first, with `a` not added again. */
  lemma SyncExample(s: Store, user: string, a: HistoryItem, b: HistoryItem)
    requires HistoryKey(user) !in s
    requires a == HistoryItem(Some("a"), None, Some(100), None)
    requires b == HistoryItem(Some("b"), None, Some(200), None)
    ensures var s1 := AddHistory(s, user, [a]).0;
            AddHistory(s1, user, [a, b]).1 == [b, a]
  {
    var s1 := AddHistory(s, user, [a]).0;
    FirstSync(a);
    assert GetHistory(s1, user) == [a];
    SecondSync(a, b);
  }

  lemma FirstSync(a: HistoryItem)
    ensures Ledger.Merge([], [a]) == [a]
  {
    assert Ledger.StoredKeys([]) == {};
    assert Ledger.FreshItems([], [a]) == [a];
    assert [] + [a] == [a];
    assert Ledger.SortDesc([a]) == [a];
  }

  lemma SecondSync(a: HistoryItem, b: HistoryItem)
    requires a == HistoryItem(Some("a"), None, Some(100), None)
    requires b == HistoryItem(Some("b"), None, Some(200), None)
    ensures Ledger.Merge([a], [a, b]) == [b, a]
  {
    Ledger.StoredKeysSingleton(a);
    assert !Ledger.IsFresh(Ledger.StoredKeys([a]), a) by {
      Ledger.KnownItemIsDropped([a], a);
    }
    assert Ledger.IsFresh(Ledger.StoredKeys([a]), b) by {
      assert Ledger.IncomingKey(b)[0] == 'b';
      assert Ledger.StoredKey(a).s[0] == 'a';
    }
    var kept := Ledger.FreshItems([a], [a, b]);
    assert kept == [b] by {
      assert [a, b][1..] == [b];
      assert Ledger.FilterFresh(Ledger.StoredKeys([a]), [b]) == [b];
    }
    assert [a] + kept == [a, b];
    assert Ledger.SortDesc([a, b]) == [b, a] by {
      assert [a, b][..1] == [a];
      assert Ledger.SortDesc([a]) == [a];
    }
  }
}
